=== FILE: README.md ===
# Formula One seeder, chart and access rules — a Dafny model

This project models the core of a small Formula One web application. The
application stores Grand Prix, driver and race-result records in a database.
Four parts are modelled:

- **The seed script** (`db-initializer.ts`). It reads three tab-separated
  files, cleans and converts their cells, and loads each entity into its table.
  A table that already holds rows is skipped unless `--drop-data` empties it
  first. GPs and drivers are inserted with duplicate keys skipped. Results are
  inserted in batches of 100. The command-line flags choose which loads run.
- **The chart loader** (`app/routes/chart.tsx`). It counts first places per
  driver name, sorts the counts with a stable sort, most wins first, and keeps
  the first ten.
- **The session guards** (`app/lib/session.server.ts`). `requireAuth` and
  `requireRole` answer 401 before 403. `createSession` overwrites the session
  fields.
- **The navigation bar** (`app/components/navbar.tsx`). It holds the link
  table and the rule that hides protected links and role links.

Modules follow the program's structure:

| module | file | what it holds |
|---|---|---|
| `Wrappers` | wrappers.dfy | `Option`, standing for `undefined`/`null` |
| `Seqs` | seqs.dfy | `filter` and its index-level meaning, `Flatten`, `Min` |
| `Text` | text.dfy | JavaScript `trim` (its whitespace set), `split`/`join`, removal of a character |
| `Fields` | fields.dfy | `cleanString`, `parseDate`, `parseIntSafe`, and a model of `parseInt(_, 10)` |
| `Csv` | csv.dfy | `readAndParseCSV` after the file read |
| `Batch` | batch.dfy | `processBatch` and its progress messages |
| `Table` | table.dfy | `createMany` with `skipDuplicates` on a keyed table |
| `Seeder` | seeder.dfy | the row mappings, the three loaders, `seedAll` and `main`'s argument handling |
| `Chart` | chart.dfy | tally, stable sort, top ten |
| `Session` | session.dfy | session data, the two guards, `createSession` |
| `Navbar` | navbar.dfy | the links and the visibility filter |

Several effects are modelled as data:

- The database is a value with one sequence per table.
- The file system is a map from path to contents. A missing path stands for a
  failed read, which aborts the run.
- JavaScript's `new Date(string)` is a parameter `string -> Option<Date>`.
  `None` stands for an invalid date.
- A date is its epoch milliseconds. The fallback `1970-01-01` is epoch 0.

## Model

| member | source | states |
|---|---|---|
| Text.Trim | db-initializer.ts:22 | the trimmed text neither starts nor ends with a JavaScript whitespace character |
| Text.TrimIsSlice | db-initializer.ts:22 | `trim` cuts a whitespace-only prefix and suffix and keeps the middle of the text unchanged |
| Text.TrimKeepsCharacters | db-initializer.ts:22 | trimming introduces no character |
| Text.TrimEmptyIffBlank | db-initializer.ts:13 | `cell.trim() !== ""` holds exactly when the cell has a non-whitespace character |
| Text.TrimIdempotent | db-initializer.ts:22 | trimming twice is trimming once |
| Text.RemoveAll | db-initializer.ts:22 | `replace(/\r/g, "")` leaves no `\r` and keeps exactly as many of every other character as the input has |
| Text.RemoveAllIsFilter | db-initializer.ts:22 | the replace is the filter that keeps every character other than `\r` |
| Text.RemoveAllKeepsOthersInOrder | db-initializer.ts:22 | the result is the input's characters other than `\r`, all of them, in their original order |
| Text.RemoveAllConcat | db-initializer.ts:22 | removing from two joined texts is removing from each and joining |
| Text.RemoveAllAbsent | db-initializer.ts:22 | a text without `\r` is unchanged by the replace |
| Text.RemoveAllBlank | db-initializer.ts:22 | removing a whitespace character keeps a text blank or non-blank |
| Text.Split | db-initializer.ts:11 | `split` yields at least one piece and no piece contains the separator |
| Text.JoinSplit | db-initializer.ts:11 | joining the pieces of a split with its separator gives the text back |
| Fields.CleanString | db-initializer.ts:21-23 | a missing cell gives `""`; the result has no `\r` and no outer whitespace; it is empty exactly when the cell is missing or blank |
| Fields.CleanStringCutsOuterSpace | db-initializer.ts:21-23 | the cleaned text is the cell with `\r` removed and then a whitespace-only prefix and suffix cut off |
| Fields.CleanStringIdempotent | db-initializer.ts:21-23 | cleaning a cleaned string changes nothing |
| Fields.ParseDate | db-initializer.ts:25-31 | a missing, blank or unparseable date gives the 1970-01-01 fallback; otherwise the parsed date |
| Fields.ParseDateFallbackOrParsed | db-initializer.ts:25-31 | a date is either the fallback or what the parser produced from the cell |
| Fields.ParseIntSafe | db-initializer.ts:34-38 | `null` exactly for a missing cell or one without a digit after leading whitespace and a sign; always `null` for a blank cell |
| Fields.JsParseInt | db-initializer.ts:36 | `parseInt(_, 10)` gives `NaN` exactly when no digit follows the leading whitespace and an optional sign; a blank text gives `NaN`; a negative value needs a leading `-` |
| Fields.JsParseIntOfNumeral | db-initializer.ts:36 | a written integer followed by text not starting with a digit reads back as that integer |
| Fields.ParseIntSafeRoundTrip | db-initializer.ts:34-38 | a written integer followed by any text not starting with a digit reads back as that integer |
| Fields.JsParseIntOfDigits | db-initializer.ts:36 | any digit run after whitespace and one optional sign, leading zeros included, followed by text not starting with a digit, reads as its decimal value with that sign |
| Fields.ParseIntSafeOfDigits | db-initializer.ts:34-38 | the same for a present cell: such a cell reads as the signed value of its digits |
| Fields.ParseIntSafeLeadingZero | db-initializer.ts:34-38 | `"007"` reads as 7 |
| Fields.ParseIntSafePlusSign | db-initializer.ts:34-38 | a `+` in front of digits changes nothing |
| Fields.ParseIntSafeOfText | db-initializer.ts:35-37 | on a present cell: `null` when blank, otherwise `parseInt` of the cell |
| Fields.ParseIntSafeSkipsLeadingSpace | db-initializer.ts:34-38 | leading whitespace does not change the value read |
| Fields.ParseIntSafeReadsNumber | db-initializer.ts:34-38 | `"42"` reads as 42 |
| Fields.ParseIntSafeRejects | db-initializer.ts:35-37 | `"abc"`, `""` and a missing cell give `null` |
| Csv.ParseCsv | db-initializer.ts:8-18 | there are no more rows than lines, and every row has a non-blank cell |
| Csv.LineHasContentIffNotBlank | db-initializer.ts:11-13 | a line split on tabs has a non-blank cell exactly when the line is not blank |
| Csv.ParseCsvKeepsNonBlankLines | db-initializer.ts:8-18 | the rows are the non-blank lines, each split on tabs, in file order, and no non-blank line is lost |
| Batch.Batches | db-initializer.ts:46-47 | the slices `items.slice(i, i + size)` taken at `i = 0, size, 2·size, …` concatenate back to the items |
| Batch.BatchesPartition | db-initializer.ts:41-51 | the batches concatenate to the items; there are ceil(n/size) of them, none empty, each at most `size`, all but the last exactly `size` |
| Batch.ProcessBatch | db-initializer.ts:41-51 | the loop hands the processor slice `[i, i+size)` of the items in order; the reported progress `min(i+size, n)` strictly increases and ends at n |
| Table.InsertSkipDuplicates | db-initializer.ts:78-81 | existing rows stay; an added row comes from the data, has a key not already in the table and is the first submitted record with that key; unique keys stay unique; every key offered ends up in the table |
| Table.InsertInPieces | db-initializer.ts:153-158 | inserting two parts one after the other equals inserting them together |
| Table.InsertBatchesIsInsertAll | db-initializer.ts:153-158 | inserting batch by batch with duplicates skipped equals one insert of all the records |
| Seeder.DataRows | db-initializer.ts:70 | the header is dropped and the other rows keep their order |
| Seeder.OptionalText | db-initializer.ts:147-150 | `cleanString(cell) \|\| null` is `null` exactly for a missing or blank cell, and otherwise the cleaned text |
| Seeder.RecordPerDataRow | db-initializer.ts:70-76 | every row after the header becomes one record, in file order |
| Seeder.DriverIdMapping | db-initializer.ts:107 | a driver id without a number becomes 0, and a written integer is read as itself |
| Seeder.ToGrandPrix | db-initializer.ts:72-76 | the date is what the parser makes of a present, non-blank cell 0, and the 1970-01-01 fallback when the cell is missing, blank or unparseable; name and country are cells 1 and 2 with `\r` removed and only outer whitespace cut, empty exactly when the cell is missing or blank |
| Seeder.ToDriver | db-initializer.ts:106-112 | the id is the number `parseIntSafe` reads from cell 0, and 0 when it reads none; the birth date is parsed from cell 3 with the fallback; name, sex and country are cells 1, 2 and 4 with `\r` removed and only outer whitespace cut |
| Seeder.ToRaceResult | db-initializer.ts:143-151 | the GP date is parsed from cell 0 with the fallback; the driver id is the number read from cell 1, or 0; the position is `parseIntSafe` of cell 2; each optional text column is `null` exactly when missing or blank, and otherwise the cell cleaned |
| Seeder.Gate | db-initializer.ts:58-67 | the load is skipped exactly when the table holds rows and no drop was asked; otherwise it starts from an empty table |
| Seeder.LoadGpData | db-initializer.ts:55-84 | only the GP table changes; a populated table without drop is left alone; the run aborts exactly when the table is to be loaded and the file is missing, with the table emptied; a load leaves the GP dates unique, every stored GP the first record of the file with its date, and every date of the file in the table |
| Seeder.LoadDriverData | db-initializer.ts:89-121 | only the driver table changes; a populated table without drop is left alone; the run aborts exactly when the table is to be loaded and the file is missing, with the table emptied; a load leaves the driver ids unique, every stored driver the first record of the file with its id, and every id of the file in the table |
| Seeder.LoadResultData | db-initializer.ts:126-161 | only the result table changes; a populated table without drop is left alone; the run aborts exactly when the table is to be loaded and the file is missing, with the table emptied; a load stores exactly the file's records, in order |
| Seeder.AppendBatchesIsAppendAll | db-initializer.ts:153-158 | appending the result batches one by one appends all the results |
| Seeder.LoadContract | db-initializer.ts:55-161 | a load touches only its own table, does nothing on a populated table without drop, aborts with an emptied table when the file cannot be read, never stores more rows than the file has records, and keeps the unique keys |
| Seeder.DropReloads | db-initializer.ts:55-161 | with `--drop-data` a table ends up holding exactly what its file yields inserted into an empty table |
| Seeder.LoadIsLocal | db-initializer.ts:55-161 | a load depends only on its own table |
| Seeder.LoadIdempotent | db-initializer.ts:55-161 | a second load of the same entity changes nothing and ends the same way |
| Seeder.PlanFor | db-initializer.ts:180-198 | `--drop-data` sets the drop; an entity is loaded exactly when there are no arguments, `--all` is given or its own flag is given; loads run in GP, Driver, Result order |
| Seeder.RunSteps | db-initializer.ts:163-171 | a run completes exactly when no step's load finds its table to be loaded and its file missing; after a completed run each loaded table is what its own load makes of the starting database; a table no step loads is left alone; GP dates and driver ids stay unique, completed or aborted |
| Seeder.RunStepsAppend | db-initializer.ts:163-171 | an abort skips every later load, and otherwise the later loads start from what the earlier ones stored |
| Seeder.RunStepsIdempotent | db-initializer.ts:163-171 | running the same distinct loads twice ends as running them once |
| Seeder.Seed | db-initializer.ts:174-207 | a run completes exactly when no selected load fails, and otherwise ends with exit status 1; after a completed run each selected table is what its own load makes of the starting database; a table not selected is left alone; GP dates and driver ids stay unique |
| Seeder.SeedAllWithDrop | db-initializer.ts:180-187 | `--all --drop-data` with the three files readable completes, and each table holds exactly what its file yields inserted into an empty table |
| Seeder.SeedIdempotent | db-initializer.ts:174-207 | running the script twice with the same arguments and files ends as running it once |
| Seeder.SeedWithoutDropOnPopulatedDb | db-initializer.ts:174-207 | without `--drop-data` a run over populated tables succeeds and changes nothing |
| Seeder.PlanExamples | db-initializer.ts:180-198 | no arguments loads all three entities without dropping; `--drop-data` alone loads nothing |
| Chart.Record | app/routes/chart.tsx:15 | counting a win adds one to that name only, adds the name if new, and keeps names distinct and counts positive |
| Chart.Tally | app/routes/chart.tsx:12-17 | the tally holds each winner once with its number of first places, which is at least 1, and no one else |
| Chart.Insert | app/routes/chart.tsx:20 | one insertion step of the sort keeps the entries (as a multiset) and the names |
| Chart.InsertSorted | app/routes/chart.tsx:20 | inserting into a list sorted by wins, most first, keeps it sorted |
| Chart.SortByWins | app/routes/chart.tsx:19-20 | the sort is a permutation of the tally and keeps its names |
| Chart.SortByWinsSorted | app/routes/chart.tsx:20 | the sorted tally has wins in non-increasing order |
| Chart.SortByWinsDistinct | app/routes/chart.tsx:20 | sorting keeps names distinct |
| Chart.TopDrivers | app/routes/chart.tsx:19-22 | the chart has `min(10, number of winners)` bars, in non-increasing order of wins |
| Chart.TopDriversFromTally | app/routes/chart.tsx:19-22 | every bar is an entry of the tally |
| Chart.TopDriversCounts | app/routes/chart.tsx:12-22 | the bars show distinct drivers, each with exactly their number of first places, at least 1 |
| Chart.TopDriversTopK | app/routes/chart.tsx:19-22 | a winner left off the chart has no more wins than any driver shown |
| Chart.TopDriversAllWinners | app/routes/chart.tsx:12-22 | with at most ten winners, a driver is on the chart exactly when they have a first place |
| Chart.NonWinsIgnored | app/routes/chart.tsx:14 | appending results not in first place changes neither the tally nor the chart |
| Chart.OnlyWinsCount | app/routes/chart.tsx:12-22 | the tally and the chart equal those of the first places alone, wherever the other results stand |
| Chart.TopDriversExample | app/routes/chart.tsx:12-22 | two wins beat one win, and a second place is not counted |
| Session.RequireAuth | app/lib/session.server.ts:55-60 | the session passes exactly when it is logged in with a non-zero user id, and passes unchanged; otherwise 401 |
| Session.RequireRole | app/lib/session.server.ts:62-70 | an unauthenticated session gets 401; an authenticated one passes exactly when its role is non-empty and allowed, and is otherwise refused with 403 |
| Session.UnauthenticatedNeverForbidden | app/lib/session.server.ts:62-70 | 403 is only given to a session that passes `requireAuth` |
| Session.RoleImpliesAuth | app/lib/session.server.ts:62-70 | passing the role guard implies passing the login guard and holding an allowed role |
| Session.EmptyRolesRejectAll | app/lib/session.server.ts:62-70 | with no allowed role everything is refused: 401 before login, 403 after |
| Session.RoleGuardMonotone | app/lib/session.server.ts:62-70 | allowing more roles never refuses a session that was let through |
| Session.GuardsIdempotent | app/lib/session.server.ts:55-70 | a session a guard lets through passes the same guard again |
| Session.CreateSession | app/lib/session.server.ts:27-44 | after login the session holds the given id, email and role and is marked logged in |
| Session.CreateSessionForgetsPrevious | app/lib/session.server.ts:36-39 | nothing of the session a login replaces survives |
| Session.LoginAuthenticates | app/lib/session.server.ts:27-60 | a fresh login passes `requireAuth` exactly when its id is not 0 |
| Session.LoginAuthorizes | app/lib/session.server.ts:27-70 | a fresh login passes `requireRole` exactly when its id is not 0 and its role is non-empty and allowed |
| Session.ZeroIdRejected | app/lib/session.server.ts:55-60 | a user with id 0 is logged in but refused with 401 |
| Navbar.VisibleLinks | app/components/navbar.tsx:43-45 | every rendered link passes both checks, and there are at most seven |
| Navbar.VisibleIff | app/components/navbar.tsx:43-45 | a link is rendered exactly when it is in the table and passes both checks |
| Navbar.AnonymousSeesNoMarkedLink | app/components/navbar.tsx:44-45 | with no user, no protected link and no role link is rendered |
| Navbar.RoleLinkNeedsRole | app/components/navbar.tsx:45 | a role link is rendered only for a user with exactly that role |
| Navbar.PublicAlwaysShown | app/components/navbar.tsx:8-16 | a link with neither marker is rendered for everyone |
| Navbar.VisibleKeepsOrder | app/components/navbar.tsx:43 | rendered links keep the table order |
| Navbar.AnonymousLinks | app/components/navbar.tsx:8-16 | a visitor who is not signed in sees Home, Database, Contact, Chart and CRUD |
| Navbar.AdminSeesAll | app/components/navbar.tsx:8-16 | an ADMIN user sees all seven links |
| Navbar.NonAdminLinks | app/components/navbar.tsx:8-16 | any other signed-in user sees every link but Admin |
| Navbar.SignInAddsLinks | app/components/navbar.tsx:44-45 | signing in never hides a link |

## Left out

- File reads, console logging, `async`/`await`, `process.exit` and `prisma.$disconnect` are left out. A failed read is an `Aborted` outcome, which stands for the exit with status 1.
- Prisma's `deleteMany`, `count` and `createMany` are modelled on in-memory sequences. Foreign-key constraints, transactions and generated ids are left out. The database schema is not part of this model. Under Prisma's default referential action (`Restrict`), `deleteMany` on grand prix or drivers that results still reference fails; Seeder.DropReloads and Seeder.SeedAllWithDrop complete only because the model has no such constraint: the source clears grand prix (db-initializer.ts:60) and drivers (db-initializer.ts:94) before results (db-initializer.ts:131), so on a database that already holds results the first of those deletes would fail.
- Seeder.LoadResultData: the model assumes that result rows have no unique key besides their generated id, so that `skipDuplicates` never skips one, and appends every record. The schema is not part of this model. Were there such a key, Table.InsertBatchesIsInsertAll and Table.InsertInPieces show that inserting in batches of 100 would store what one insert of all the records stores.
- Seeder.LoadResultData: a result belongs to a driver and a GP (app/lib/repositories/result.repository.ts:7-10, app/routes/chart.tsx:15), but foreign keys are not modelled. A record whose driver id fell back to 0, or whose GP date fell back to 1970-01-01, would normally make `createMany` reject the batch; the model appends it anyway.
- Batch.Batches: requires `size > 0`, as does everything in the Batch module. The loop `i += batchSize` of `processBatch` never ends when the size is 0 or negative; its only caller passes `BATCH_SIZE`, which is 100.
- `new Date(string)` is a parameter. Its grammar and time zones are left out, since the model cannot see that parser.
- Fields.ParseDate: the `fallback` argument is always the default `"1970-01-01"`, because every caller omits it.
- Fields.ParseIntSafe: `parseInt` is exact on unbounded integers. Floating-point rounding of very long numerals and the result `-0` (equal to 0 here) are left out.
- Seeder.DropReloads: completes without the foreign-key `Restrict` failure described above, which the model leaves out.
- Seeder.SeedAllWithDrop: likewise completes without that failure when results already exist.
- Chart.Record: driver names are assumed not to be `Object.prototype` property names (`constructor`, `toString`, `valueOf`, `hasOwnProperty`, `__proto__`). On a plain `{}`, `wins[name] || 0` reads the inherited value for those, which gives a string count, or an ignored assignment for `__proto__`.
- Chart.SortByWins: the stable order among equal counts comes from the insertion order of the tally. The model does not state it as a lemma. JavaScript lists integer-like object keys first; driver names are assumed not to be integer-like.
- The chart rendering (Chart.js, React) and the repository query behind `findAll` are left out. Results enter as `(position, driver name)` pairs.
- Session: `getSession`, `destroySession`, iron-session's cookie encryption and the session options are left out. They are I/O with the cookie store. A `NaN` user id cannot occur, because ids are integers.
- Navbar: rendering, the logout handler and the loading state are left out. Only which links appear, and in what order, is modelled.

=== FILE: batch.dfy ===
/** `processBatch`: a list handed to a processor in consecutive fixed-size
    batches, with a progress count after each (db-initializer.ts). */
module Batch {
  import opened Seqs

  /** The batches `processBatch` hands to its processor, in order. */
  function Batches<T>(items: seq<T>, size: nat): (b: seq<seq<T>>)
    requires size > 0
    ensures Flatten(b) == items
    decreases |items|
  {
    if |items| == 0 then []
    else
      var n := Min(size, |items|);
      var b := [items[..n]] + Batches(items[n..], size);
      assert b[1..] == Batches(items[n..], size);
      assert items == items[..n] + items[n..];
      b
  }

  /** The batches partition the items: every batch is non-empty, all but the
      last hold exactly `size` items, there are ceil(n / size) of them (the
      least count whose batches can hold n items), and together they are the
      items, in order. */
  lemma BatchesPartition<T>(items: seq<T>, size: nat)
    requires size > 0
    ensures Flatten(Batches(items, size)) == items
    ensures var count := |Batches(items, size)|;
      (count - 1) * size < |items| <= count * size || count == |items| == 0
    ensures forall k :: 0 <= k < |Batches(items, size)| ==> 0 < |Batches(items, size)[k]| <= size
    ensures forall k :: 0 <= k < |Batches(items, size)| - 1 ==> |Batches(items, size)[k]| == size
  {
    BatchesCount(items, size);
    BatchesSizes(items, size);
  }

  lemma {:induction false} BatchesCount<T>(items: seq<T>, size: nat)
    requires size > 0
    ensures var count := |Batches(items, size)|;
      (count - 1) * size < |items| <= count * size || count == |items| == 0
    decreases |items|
  {
    if |items| > 0 {
      var n := Min(size, |items|);
      var rest := Batches(items[n..], size);
      BatchesCount(items[n..], size);
      assert |Batches(items, size)| == |rest| + 1;
      CountStep(|rest|, size);
    }
  }

  lemma {:induction false} BatchesSizes<T>(items: seq<T>, size: nat)
    requires size > 0
    ensures forall k :: 0 <= k < |Batches(items, size)| ==> 0 < |Batches(items, size)[k]| <= size
    ensures forall k :: 0 <= k < |Batches(items, size)| - 1 ==> |Batches(items, size)[k]| == size
    decreases |items|
  {
    if |items| > 0 {
      var n := Min(size, |items|);
      var rest := Batches(items[n..], size);
      BatchesSizes(items[n..], size);
      var bs := Batches(items, size);
      assert bs == [items[..n]] + rest;
      assert forall k :: 1 <= k < |bs| ==> bs[k] == rest[k - 1];
      if |rest| > 0 {
        assert n == size;
      }
    }
  }

  lemma CountStep(c: nat, size: nat)
    ensures (c + 1) * size == c * size + size
    ensures c > 0 ==> c * size == (c - 1) * size + size
  {
  }

  /** Where batch `k` starts: the progress reported after the batch before it. */
  function Start(progress: seq<nat>, k: nat): nat
    requires k <= |progress|
  {
    if k == 0 then 0 else progress[k - 1]
  }

  /** What holds after the loop of `processBatch` has handled the items
      before position `i`: the batches so far are the first batches of
      `Batches`, ... */
  ghost predicate BatchesSoFar<T>(items: seq<T>, size: nat, i: nat, batches: seq<seq<T>>)
    requires size > 0
  {
    batches + Batches(items[Min(i, |items|)..], size) == Batches(items, size)
  }

  /** ... one progress report was made per batch, the last one at `i` clipped to `n`, ... */
  predicate ReportsSoFar(n: nat, i: nat, count: nat, progress: seq<nat>) {
    && |progress| == count
    && Start(progress, |progress|) == Min(i, n)
    && (i > n ==> |progress| > 0)
    && (forall k {:trigger Start(progress, k)} :: 0 <= k < |progress| ==> Start(progress, k) < progress[k] <= n)
  }

  /** ... each report is the previous one plus `size`, clipped to `n`, and each
      batch holds the items between two successive reports. */
  ghost predicate SlicesSoFar<T>(items: seq<T>, size: nat, batches: seq<seq<T>>, progress: seq<nat>)
    requires |batches| == |progress|
  {
    && (forall k {:trigger Start(progress, k)} :: 0 <= k < |progress| ==> progress[k] == Min(Start(progress, k) + size, |items|))
    && (forall k {:trigger Start(progress, k)} :: 0 <= k < |progress| ==> Start(progress, k) <= progress[k] <= |items|)
    && (forall k {:trigger Start(progress, k)} :: 0 <= k < |batches| ==> batches[k] == items[Start(progress, k)..progress[k]])
  }

  /** The three together: the state of the loop once the items before `i` are handled. */
  ghost predicate Handled<T>(items: seq<T>, size: nat, i: nat, batches: seq<seq<T>>, progress: seq<nat>)
    requires size > 0
  {
    && ReportsSoFar(|items|, i, |batches|, progress)
    && BatchesSoFar(items, size, i, batches)
    && SlicesSoFar(items, size, batches, progress)
  }

  /** The JavaScript loop of `processBatch`, with the processor and the log
      line abstracted away: `batches` are the slices `items.slice(i, i + size)`
      it processes and `progress` the counts `Math.min(i + size, n)` it
      reports. Progress is strictly increasing, never exceeds `n` and ends at
      `n`; each batch is exactly the items between two successive reports. */
  method ProcessBatch<T>(items: seq<T>, size: nat) returns (batches: seq<seq<T>>, progress: seq<nat>)
    requires size > 0
    ensures batches == Batches(items, size)
    ensures |progress| == |batches|
    ensures forall k {:trigger Start(progress, k)} :: 0 <= k < |progress| ==> progress[k] == Min(Start(progress, k) + size, |items|)
    ensures forall k :: 0 <= k < |progress| ==> progress[k] <= |items|
    ensures forall j, k :: 0 <= j < k < |progress| ==> progress[j] < progress[k]
    ensures |items| > 0 ==> progress[|progress| - 1] == |items|
    ensures forall k {:trigger Start(progress, k)} :: 0 <= k < |batches| ==> batches[k] == items[Start(progress, k)..progress[k]]
  {
    batches, progress := [], [];
    var i := 0;
    Started(items, size);
    while i < |items|
      invariant Handled(items, size, i, batches, progress)
      decreases |items| - i
    {
      var end := Min(i + size, |items|);
      LoopStep(items, size, i, batches, progress);
      batches, progress, i := batches + [items[i..end]], progress + [end], i + size;
    }
    Finished(items, size, i, batches, progress);
  }

  /** Before the first turn nothing is handled yet. */
  lemma Started<T>(items: seq<T>, size: nat)
    requires size > 0
    ensures Handled(items, size, 0, [], [])
  {
    assert items[0..] == items;
  }

  /** When the loop stops, the invariants give everything `ProcessBatch` promises. */
  lemma Finished<T>(items: seq<T>, size: nat, i: nat, batches: seq<seq<T>>, progress: seq<nat>)
    requires size > 0 && i >= |items|
    requires Handled(items, size, i, batches, progress)
    ensures batches == Batches(items, size)
    ensures |progress| == |batches|
    ensures forall k {:trigger Start(progress, k)} :: 0 <= k < |progress| ==> progress[k] == Min(Start(progress, k) + size, |items|)
    ensures forall k :: 0 <= k < |progress| ==> progress[k] <= |items|
    ensures forall j, k :: 0 <= j < k < |progress| ==> progress[j] < progress[k]
    ensures |items| > 0 ==> progress[|progress| - 1] == |items|
    ensures forall k {:trigger Start(progress, k)} :: 0 <= k < |batches| ==> batches[k] == items[Start(progress, k)..progress[k]]
  {
    assert items[|items|..] == [];
    IncreasingFromSteps(progress);
  }

  /** One turn of the loop keeps all three invariants. */
  lemma LoopStep<T>(items: seq<T>, size: nat, i: nat, batches: seq<seq<T>>, progress: seq<nat>)
    requires size > 0 && i < |items|
    requires Handled(items, size, i, batches, progress)
    ensures var end := Min(i + size, |items|);
      Handled(items, size, i + size, batches + [items[i..end]], progress + [end])
  {
    BatchesSoFarStep(items, size, i, batches);
    SlicesSoFarStep(items, size, i, batches, progress);
  }

  lemma BatchesSoFarStep<T>(items: seq<T>, size: nat, i: nat, batches: seq<seq<T>>)
    requires size > 0 && i < |items|
    requires BatchesSoFar(items, size, i, batches)
    ensures BatchesSoFar(items, size, i + size, batches + [items[i..Min(i + size, |items|)]])
  {
    var end := Min(i + size, |items|);
    BatchesStep(items, i, size);
    var later := Batches(items[end..], size);
    assert batches + ([items[i..end]] + later) == Batches(items, size);
    assert (batches + [items[i..end]]) + later == batches + ([items[i..end]] + later);
    assert Min(i + size, |items|) == end;
  }

  lemma SlicesSoFarStep<T>(items: seq<T>, size: nat, i: nat, batches: seq<seq<T>>, progress: seq<nat>)
    requires size > 0 && i < |items|
    requires ReportsSoFar(|items|, i, |batches|, progress)
    requires SlicesSoFar(items, size, batches, progress)
    ensures var end := Min(i + size, |items|);
      && ReportsSoFar(|items|, i + size, |batches| + 1, progress + [end])
      && SlicesSoFar(items, size, batches + [items[i..end]], progress + [end])
  {
    ReportsStep(|items|, size, i, progress);
    SlicesStep(items, size, i, batches, progress);
  }

  lemma ReportsStep(n: nat, size: nat, i: nat, progress: seq<nat>)
    requires size > 0 && i < n
    requires ReportsSoFar(n, i, |progress|, progress)
    ensures ReportsSoFar(n, i + size, |progress| + 1, progress + [Min(i + size, n)])
  {
    var end := Min(i + size, n);
    var p := progress + [end];
    StartAppend(progress, end);
    forall k | 0 <= k < |p| ensures Start(p, k) < p[k] <= n {
      if k < |progress| {
        assert p[k] == progress[k];
      }
    }
  }

  lemma SlicesStep<T>(items: seq<T>, size: nat, i: nat, batches: seq<seq<T>>, progress: seq<nat>)
    requires size > 0 && i < |items|
    requires |batches| == |progress|
    requires Start(progress, |progress|) == i
    requires SlicesSoFar(items, size, batches, progress)
    ensures var end := Min(i + size, |items|);
      SlicesSoFar(items, size, batches + [items[i..end]], progress + [end])
  {
    var end := Min(i + size, |items|);
    StartAppend(progress, end);
    var b, p := batches + [items[i..end]], progress + [end];
    var last := |progress|;
    assert Start(p, last) == i && p[last] == end && b[last] == items[i..end];
    forall k | 0 <= k < |p|
      ensures p[k] == Min(Start(p, k) + size, |items|)
      ensures Start(p, k) <= p[k] <= |items|
      ensures b[k] == items[Start(p, k)..p[k]]
    {
      if k < last {
        assert p[k] == progress[k] && b[k] == batches[k];
      }
    }
  }

  /** One turn of the loop: the batch starting at `i` is `items[i..i + size]`, clipped at the end. */
  lemma BatchesStep<T>(items: seq<T>, i: nat, size: nat)
    requires size > 0 && i < |items|
    ensures Batches(items[i..], size) ==
              [items[i..Min(i + size, |items|)]] + Batches(items[Min(i + size, |items|)..], size)
  {
    var rest := items[i..];
    var n := Min(size, |rest|);
    assert rest[..n] == items[i..Min(i + size, |items|)];
    assert rest[n..] == items[Min(i + size, |items|)..];
  }

  lemma StartAppend(p: seq<nat>, x: nat)
    ensures forall k :: 0 <= k <= |p| ==> Start(p + [x], k) == Start(p, k)
    ensures Start(p + [x], |p| + 1) == x
  {
    forall k | 0 <= k <= |p| ensures Start(p + [x], k) == Start(p, k) {
      if k > 0 {
        assert (p + [x])[k - 1] == p[k - 1];
      }
    }
  }

  /** A sequence that grows at every step is strictly increasing. */
  lemma {:induction false} IncreasingFromSteps(p: seq<nat>)
    requires forall k {:trigger Start(p, k)} :: 0 <= k < |p| ==> Start(p, k) < p[k]
    ensures forall j, k :: 0 <= j < k < |p| ==> p[j] < p[k]
  {
    forall j, k | 0 <= j < k < |p| ensures p[j] < p[k] {
      StepsIncrease(p, j, k);
    }
  }

  lemma {:induction false} StepsIncrease(p: seq<nat>, j: nat, k: nat)
    requires forall k {:trigger Start(p, k)} :: 0 <= k < |p| ==> Start(p, k) < p[k]
    requires j < k < |p|
    ensures p[j] < p[k]
    decreases k - j
  {
    assert Start(p, k) == p[k - 1];
    if j + 1 < k {
      StepsIncrease(p, j, k - 1);
    }
  }
}

=== FILE: chart.dfy ===
/** The chart loader of app/routes/chart.tsx: count first places per driver
    name, rank the names by wins and keep the ten best. */
module Chart {
  import opened Wrappers
  import opened Seqs

  /** What the loader reads of a result: its position and its driver's name. */
  datatype ResultView = ResultView(position: Option<int>, driverName: string)

  /** One bar of the chart: a driver name and its number of wins. */
  datatype Entry = Entry(name: string, wins: nat)

  /** How many drivers the chart shows. */
  const TopCount: nat := 10

  /** `result.position === 1`. */
  predicate IsWin(r: ResultView) {
    r.position == Some(1)
  }

  /** The number of first places of `name` among `results`: the reference
      count the tally is measured against. */
  function Wins(results: seq<ResultView>, name: string): nat {
    if |results| == 0 then 0
    else
      var last := results[|results| - 1];
      Wins(results[..|results| - 1], name) + (if IsWin(last) && last.driverName == name then 1 else 0)
  }

  /** The names a tally has entries for. */
  function Names(t: seq<Entry>): set<string> {
    if |t| == 0 then {} else {t[0].name} + Names(t[1..])
  }

  /** No name has two entries. */
  predicate DistinctNames(t: seq<Entry>) {
    |t| == 0 || (t[0].name !in Names(t[1..]) && DistinctNames(t[1..]))
  }

  /** Every entry counts at least one win. */
  predicate Positive(t: seq<Entry>) {
    forall i :: 0 <= i < |t| ==> t[i].wins >= 1
  }

  /** `wins[name] || 0`: the count a tally holds for `name`, for a name that
      is not a property of `Object.prototype` (see README, Left out). */
  function WinsOf(t: seq<Entry>, name: string): nat {
    if |t| == 0 then 0 else if t[0].name == name then t[0].wins else WinsOf(t[1..], name)
  }

  /** `wins[name] = (wins[name] || 0) + 1`: an existing entry is incremented
      where it stands, a new name is added at the end (object keys keep their
      insertion order). */
  function Record(t: seq<Entry>, name: string): (r: seq<Entry>)
    ensures forall n :: WinsOf(r, n) == WinsOf(t, n) + (if n == name then 1 else 0)
    ensures Names(r) == Names(t) + {name}
    ensures DistinctNames(t) ==> DistinctNames(r)
    ensures Positive(t) ==> Positive(r)
  {
    if |t| == 0 then
      assert [Entry(name, 1)][1..] == [];
      [Entry(name, 1)]
    else if t[0].name == name then
      var r := [Entry(name, t[0].wins + 1)] + t[1..];
      assert r[1..] == t[1..];
      r
    else
      var rest := Record(t[1..], name);
      var r := [t[0]] + rest;
      assert r[1..] == rest;
      r
  }

  /** The `forEach` over the results: only first places are recorded. */
  function Tally(results: seq<ResultView>): (r: seq<Entry>)
    ensures DistinctNames(r)
    ensures Positive(r)
    ensures forall n :: WinsOf(r, n) == Wins(results, n)
  {
    if |results| == 0 then []
    else
      var t := Tally(results[..|results| - 1]);
      var last := results[|results| - 1];
      if IsWin(last) then Record(t, last.driverName) else t
  }

  /** A name has an entry exactly when its count is non-zero. */
  lemma {:induction false} NamesArePositive(t: seq<Entry>, n: string)
    requires Positive(t)
    ensures n in Names(t) <==> WinsOf(t, n) > 0
  {
    if |t| > 0 {
      NamesArePositive(t[1..], n);
    }
  }

  /** With distinct names, the count for an entry's name is that entry's wins. */
  lemma {:induction false} WinsOfEntry(t: seq<Entry>, i: nat)
    requires DistinctNames(t)
    requires i < |t|
    ensures WinsOf(t, t[i].name) == t[i].wins
  {
    if i > 0 {
      WinsOfEntry(t[1..], i - 1);
      NameOfEntry(t[1..], i - 1);
    }
  }

  lemma {:induction false} NameOfEntry(t: seq<Entry>, i: nat)
    requires i < |t|
    ensures t[i].name in Names(t)
  {
    if i > 0 {
      NameOfEntry(t[1..], i - 1);
    }
  }

  /** The recursive and the pairwise reading of distinct names agree. */
  lemma {:induction false} DistinctNamesPairwise(t: seq<Entry>)
    requires DistinctNames(t)
    ensures forall i, j :: 0 <= i < j < |t| ==> t[i].name != t[j].name
  {
    if |t| > 0 {
      DistinctNamesPairwise(t[1..]);
      forall j | 0 < j < |t| ensures t[0].name != t[j].name {
        NameOfEntry(t[1..], j - 1);
      }
    }
  }

  /** Wins never increase along the sequence. */
  predicate NonIncreasing(t: seq<Entry>) {
    forall i, j :: 0 <= i < j < |t| ==> t[i].wins >= t[j].wins
  }

  /** One step of the stable sort by `b - a`: `e` goes before the first entry
      with no more wins than it has. */
  function Insert(e: Entry, xs: seq<Entry>): (r: seq<Entry>)
    ensures multiset(r) == multiset(xs) + multiset{e}
    ensures Names(r) == Names(xs) + {e.name}
  {
    if |xs| == 0 || xs[0].wins <= e.wins then
      var r := [e] + xs;
      assert r[1..] == xs;
      r
    else
      var rest := Insert(e, xs[1..]);
      var r := [xs[0]] + rest;
      assert r[1..] == rest;
      assert xs == [xs[0]] + xs[1..];
      r
  }

  lemma {:induction false} InsertSorted(e: Entry, xs: seq<Entry>)
    requires NonIncreasing(xs)
    ensures NonIncreasing(Insert(e, xs))
  {
    if |xs| == 0 || xs[0].wins <= e.wins {
      ConsSorted(e, xs);
    } else {
      var tail := xs[1..];
      InsertSorted(e, tail);
      InsertBounded(e, tail, xs[0].wins);
      ConsSorted(xs[0], Insert(e, tail));
    }
  }

  /** Inserting under a bound keeps every entry under it. */
  lemma InsertBounded(e: Entry, xs: seq<Entry>, bound: nat)
    requires e.wins <= bound
    requires forall k :: 0 <= k < |xs| ==> xs[k].wins <= bound
    ensures forall k :: 0 <= k < |Insert(e, xs)| ==> Insert(e, xs)[k].wins <= bound
  {
    var r := Insert(e, xs);
    forall k | 0 <= k < |r| ensures r[k].wins <= bound {
      assert r[k] in multiset(r);
      if r[k] != e {
        assert r[k] in multiset(xs);
        var j :| 0 <= j < |xs| && xs[j] == r[k];
      }
    }
  }

  /** An entry in front of a sorted sequence whose wins it bounds. */
  lemma ConsSorted(x: Entry, rest: seq<Entry>)
    requires NonIncreasing(rest)
    requires forall k :: 0 <= k < |rest| ==> rest[k].wins <= x.wins
    ensures NonIncreasing([x] + rest)
  {
    var r := [x] + rest;
    forall i, j | 0 <= i < j < |r| ensures r[i].wins >= r[j].wins {
      assert r[j] == rest[j - 1];
      if i > 0 {
        assert r[i] == rest[i - 1];
      }
    }
  }

  lemma {:induction false} InsertDistinct(e: Entry, xs: seq<Entry>)
    requires DistinctNames(xs)
    requires e.name !in Names(xs)
    ensures DistinctNames(Insert(e, xs))
  {
    if |xs| > 0 && xs[0].wins > e.wins {
      InsertDistinct(e, xs[1..]);
    }
  }

  /** `.sort(([, a], [, b]) => b - a)`, a stable insertion sort by wins,
      most wins first. */
  function SortByWins(t: seq<Entry>): (r: seq<Entry>)
    ensures multiset(r) == multiset(t)
    ensures Names(r) == Names(t)
  {
    if |t| == 0 then []
    else
      assert t == [t[0]] + t[1..];
      Insert(t[0], SortByWins(t[1..]))
  }

  lemma {:induction false} SortByWinsSorted(t: seq<Entry>)
    ensures NonIncreasing(SortByWins(t))
  {
    if |t| > 0 {
      SortByWinsSorted(t[1..]);
      InsertSorted(t[0], SortByWins(t[1..]));
    }
  }

  lemma {:induction false} SortByWinsDistinct(t: seq<Entry>)
    requires DistinctNames(t)
    ensures DistinctNames(SortByWins(t))
  {
    if |t| > 0 {
      SortByWinsDistinct(t[1..]);
      InsertDistinct(t[0], SortByWins(t[1..]));
    }
  }

  /** The loader's `topDrivers`: the tally sorted by wins, cut to its first
      ten entries. There are ten bars, or as many as there are winners when
      fewer, with wins never increasing from one bar to the next. */
  function TopDrivers(results: seq<ResultView>): (r: seq<Entry>)
    ensures |r| == Min(TopCount, |Tally(results)|)
    ensures NonIncreasing(r)
  {
    var t := Tally(results);
    var ranked := SortByWins(t);
    SortByWinsSorted(t);
    assert |multiset(ranked)| == |multiset(t)|;
    ranked[..Min(TopCount, |ranked|)]
  }

  /** The bars are taken from the tally: no name or count is invented. */
  lemma TopDriversFromTally(results: seq<ResultView>)
    ensures multiset(TopDrivers(results)) <= multiset(Tally(results))
  {
    var ranked := SortByWins(Tally(results));
    var m := Min(TopCount, |ranked|);
    assert ranked == ranked[..m] + ranked[m..];
  }

  /** Each bar is a different driver with at least one win, and shows exactly
      that driver's number of first places. */
  lemma TopDriversCounts(results: seq<ResultView>)
    ensures forall i, j :: 0 <= i < j < |TopDrivers(results)| ==> TopDrivers(results)[i].name != TopDrivers(results)[j].name
    ensures forall i :: 0 <= i < |TopDrivers(results)| ==> TopDrivers(results)[i].wins >= 1
    ensures forall i :: 0 <= i < |TopDrivers(results)| ==> TopDrivers(results)[i].wins == Wins(results, TopDrivers(results)[i].name)
  {
    TopDriversDistinct(results);
    var top := TopDrivers(results);
    TopDriversFromTally(results);
    forall i | 0 <= i < |top| ensures top[i].wins >= 1 && top[i].wins == Wins(results, top[i].name) {
      assert top[i] in multiset(top);
      TallyEntry(results, top[i]);
    }
  }

  lemma TopDriversDistinct(results: seq<ResultView>)
    ensures forall i, j :: 0 <= i < j < |TopDrivers(results)| ==> TopDrivers(results)[i].name != TopDrivers(results)[j].name
  {
    var t := Tally(results);
    SortByWinsDistinct(t);
    DistinctNamesPairwise(SortByWins(t));
  }

  /** An entry of the tally counts its name's first places, at least one. */
  lemma TallyEntry(results: seq<ResultView>, x: Entry)
    requires x in multiset(Tally(results))
    ensures x.wins >= 1 && x.wins == Wins(results, x.name)
  {
    var t := Tally(results);
    var k :| 0 <= k < |t| && t[k] == x;
    WinsOfEntry(t, k);
  }

  /** Top ten: a tally entry left off the chart has no more wins than any
      bar on it. */
  lemma TopDriversTopK(results: seq<ResultView>)
    ensures forall e, i :: e in Tally(results) && e !in TopDrivers(results) && 0 <= i < |TopDrivers(results)| ==> e.wins <= TopDrivers(results)[i].wins
  {
    var t := Tally(results);
    var ranked := SortByWins(t);
    var m := Min(TopCount, |ranked|);
    var top := TopDrivers(results);
    SortByWinsSorted(t);
    forall e, i | e in t && e !in top && 0 <= i < |top| ensures e.wins <= top[i].wins {
      assert e in multiset(ranked);
      var j :| 0 <= j < |ranked| && ranked[j] == e;
      assert top[i] == ranked[i];
    }
  }

  /** Every driver with a first place is on the chart when at most ten
      drivers have one. */
  lemma TopDriversAllWinners(results: seq<ResultView>, n: string)
    requires |Tally(results)| <= TopCount
    ensures (exists i :: 0 <= i < |TopDrivers(results)| && TopDrivers(results)[i].name == n) <==> Wins(results, n) > 0
  {
    var t := Tally(results);
    var ranked := SortByWins(t);
    NamesArePositive(t, n);
    assert |multiset(ranked)| == |multiset(t)|;
    assert TopDrivers(results) == ranked;
    NamesAreEntries(ranked, n);
  }

  lemma {:induction false} NamesAreEntries(t: seq<Entry>, n: string)
    ensures n in Names(t) <==> exists i :: 0 <= i < |t| && t[i].name == n
  {
    if |t| > 0 {
      NamesAreEntries(t[1..], n);
      if n in Names(t[1..]) {
        var i :| 0 <= i < |t[1..]| && t[1..][i].name == n;
        assert t[i + 1].name == n;
      }
      if exists i :: 0 <= i < |t| && t[i].name == n {
        var i :| 0 <= i < |t| && t[i].name == n;
        if i > 0 {
          assert t[1..][i - 1].name == n;
        }
      }
    }
  }

  /** Only first places count: results placed anywhere else leave the chart
      unchanged. */
  lemma {:induction false} NonWinsIgnored(results: seq<ResultView>, others: seq<ResultView>)
    requires forall k :: 0 <= k < |others| ==> !IsWin(others[k])
    ensures Tally(results + others) == Tally(results)
    ensures TopDrivers(results + others) == TopDrivers(results)
  {
    if |others| > 0 {
      var init := others[..|others| - 1];
      assert (results + others)[..|results + others| - 1] == results + init;
      assert (results + others)[|results + others| - 1] == others[|others| - 1];
      NonWinsIgnored(results, init);
    } else {
      assert results + others == results;
    }
  }

  /** Only first places count, wherever the other results stand: the tally
      and the chart of all results are those of the first places alone. */
  lemma {:induction false} OnlyWinsCount(results: seq<ResultView>)
    ensures Tally(results) == Tally(Filter(results, IsWin))
    ensures TopDrivers(results) == TopDrivers(Filter(results, IsWin))
    decreases |results|
  {
    if |results| > 0 {
      var init, last := results[..|results| - 1], results[|results| - 1];
      assert results == init + [last];
      FilterSnoc(init, last, IsWin);
      OnlyWinsCount(init);
      var wins := Filter(init, IsWin);
      if IsWin(last) {
        var w := wins + [last];
        assert w[..|w| - 1] == wins && w[|w| - 1] == last;
      } else {
        assert Filter(results, IsWin) == wins;
      }
    }
  }

  /** Two drivers with two and one first places, and a second place that
      is not counted. */
  lemma TopDriversExample()
    ensures TopDrivers([
      ResultView(Some(1), "Senna"), ResultView(Some(2), "Prost"),
      ResultView(Some(1), "Prost"), ResultView(Some(1), "Prost"), ResultView(None, "Senna")])
      == [Entry("Prost", 2), Entry("Senna", 1)]
  {
    var rs := [
      ResultView(Some(1), "Senna"), ResultView(Some(2), "Prost"),
      ResultView(Some(1), "Prost"), ResultView(Some(1), "Prost"), ResultView(None, "Senna")];
    assert rs[..1] == [rs[0]];
    assert [rs[0]][..0] == [];
    assert Tally(rs[..1]) == [Entry("Senna", 1)];
    assert rs[..2][..1] == rs[..1];
    assert Tally(rs[..2]) == [Entry("Senna", 1)];
    assert rs[..3][..2] == rs[..2];
    assert "Senna"[0] != "Prost"[0];
    assert [Entry("Senna", 1)][1..] == [];
    assert Record([], "Prost") == [Entry("Prost", 1)];
    assert Record([Entry("Senna", 1)], "Prost") == [Entry("Senna", 1), Entry("Prost", 1)];
    assert Tally(rs[..3]) == [Entry("Senna", 1), Entry("Prost", 1)];
    assert rs[..4][..3] == rs[..3];
    assert [Entry("Senna", 1), Entry("Prost", 1)][1..] == [Entry("Prost", 1)];
    assert Record([Entry("Prost", 1)], "Prost") == [Entry("Prost", 2)];
    assert Tally(rs[..4]) == [Entry("Senna", 1), Entry("Prost", 2)];
    assert rs[..4] == rs[..|rs| - 1];
    var t := Tally(rs);
    assert t == [Entry("Senna", 1), Entry("Prost", 2)];
    assert t[1..] == [Entry("Prost", 2)];
    assert SortByWins(t[1..]) == [Entry("Prost", 2)];
    assert SortByWins(t) == [Entry("Prost", 2), Entry("Senna", 1)];
  }
}

=== FILE: csv.dfy ===
/** `readAndParseCSV` without the file read: the text is split into lines on
    `\n`, each line into cells on `\t`, and rows whose cells are all blank are
    dropped (db-initializer.ts). */
module Csv {
  import opened Wrappers
  import opened Seqs
  import opened Text

  type Row = seq<string>

  /** `row[i]`, which is `undefined` past the end of the row. */
  function Cell(row: Row, i: nat): Option<string> {
    if i < |row| then Some(row[i]) else None
  }

  /** `row.some((cell) => cell.trim() !== "")`. */
  predicate HasContent(row: Row) {
    exists i :: 0 <= i < |row| && Trim(row[i]) != ""
  }

  /** `data.split("\n").map((line) => line.split("\t"))`. */
  function SplitRows(text: string): seq<Row> {
    var lines := Split(text, '\n');
    seq(|lines|, i requires 0 <= i < |lines| => Split(lines[i], '\t'))
  }

  /** The rows `readAndParseCSV` returns for file contents `text`. */
  function ParseCsv(text: string): (rows: seq<Row>)
    ensures |rows| <= |Split(text, '\n')|
    ensures forall k :: 0 <= k < |rows| ==> HasContent(rows[k])
  {
    Filter(SplitRows(text), HasContent)
  }

  /** With a whitespace separator, a joined text is blank exactly when every piece is. */
  lemma {:induction false} BlankJoin(pieces: seq<string>, sep: char)
    requires IsSpace(sep)
    ensures Blank(Join(pieces, sep)) <==> forall i :: 0 <= i < |pieces| ==> Blank(pieces[i])
    decreases |pieces|
  {
    if |pieces| > 1 {
      BlankJoin(pieces[1..], sep);
      BlankConcat(pieces[0] + [sep], Join(pieces[1..], sep));
      BlankConcat(pieces[0], [sep]);
      if forall i :: 1 <= i < |pieces| ==> Blank(pieces[i]) {
        assert forall i :: 0 <= i < |pieces[1..]| ==> Blank(pieces[1..][i]);
      }
      if forall i :: 0 <= i < |pieces[1..]| ==> Blank(pieces[1..][i]) {
        forall i | 1 <= i < |pieces| ensures Blank(pieces[i]) {
          assert pieces[i] == pieces[1..][i - 1];
        }
      }
    }
  }

  /** Because the tab is itself whitespace, a line yields a row without content
      exactly when the whole line is whitespace. */
  lemma LineHasContentIffNotBlank(line: string)
    ensures HasContent(Split(line, '\t')) <==> !Blank(line)
  {
    var cells := Split(line, '\t');
    JoinSplit(line, '\t');
    BlankJoin(cells, '\t');
    forall i | 0 <= i < |cells| ensures Trim(cells[i]) == "" <==> Blank(cells[i]) {
      TrimEmptyIffBlank(cells[i]);
    }
  }

  /** The rows returned are the lines of `text` that are not all whitespace,
      each split on tabs, in their original order: line `Kept(...)[k]` of the
      text produced row `k`, and a line is kept exactly when it is not blank. */
  lemma ParseCsvKeepsNonBlankLines(text: string)
    ensures var lines, rows, ix := Split(text, '\n'), ParseCsv(text), Kept(SplitRows(text), HasContent);
      && |ix| == |rows|
      && StrictlyIncreasing(ix)
      && (forall k :: 0 <= k < |ix| ==>
            ix[k] < |lines| && rows[k] == Split(lines[ix[k]], '\t') && Join(rows[k], '\t') == lines[ix[k]])
      && (forall i: nat :: i < |lines| ==> (i in ix <==> !Blank(lines[i])))
  {
    var lines := Split(text, '\n');
    FilterIsOrderedSelection(SplitRows(text), HasContent);
    forall i | 0 <= i < |lines|
      ensures HasContent(SplitRows(text)[i]) <==> !Blank(lines[i])
      ensures Join(SplitRows(text)[i], '\t') == lines[i]
    {
      LineHasContentIffNotBlank(lines[i]);
      JoinSplit(lines[i], '\t');
    }
  }
}

=== FILE: fields.dfy ===
/** The seed loader's field normalisers: `cleanString`, `parseDate` and
    `parseIntSafe` (db-initializer.ts). */
module Fields {
  import opened Wrappers
  import opened Text

  /** `cleanString`: a missing cell becomes `""`; otherwise carriage returns
      are deleted and surrounding whitespace trimmed. */
  function CleanString(value: Option<string>): (r: string)
    ensures value.None? ==> r == ""
    ensures '\r' !in r
    ensures |r| == 0 || (!IsSpace(r[0]) && !IsSpace(r[|r| - 1]))
    ensures r == "" <==> value.None? || Blank(value.value)
  {
    var s := value.GetOr("");
    var noCr := RemoveAll(s, '\r');
    TrimKeepsCharacters(noCr, '\r');
    TrimEmptyIffBlank(noCr);
    RemoveAllBlank(s, '\r');
    Trim(noCr)
  }

  /** A present cell is cleaned to the middle of its `\r`-free text: only
      whitespace is cut, on either side. */
  lemma CleanStringCutsOuterSpace(v: string)
    ensures OuterSpaceCut(RemoveAll(v, '\r'), CleanString(Some(v)))
  {
    TrimCutsOuterSpace(RemoveAll(v, '\r'));
  }

  /** Cleaning an already clean string changes nothing. */
  lemma CleanStringIdempotent(value: Option<string>)
    ensures CleanString(Some(CleanString(value))) == CleanString(value)
  {
    var c := CleanString(value);
    RemoveAllAbsent(c, '\r');
    var s := RemoveAll(value.GetOr(""), '\r');
    TrimIdempotent(s);
  }

  /** A JavaScript `Date`, by its time value in milliseconds since the epoch. */
  datatype Date = Date(epochMillis: int)

  /** `new Date("1970-01-01")`: a date-only ISO string denotes UTC midnight,
      time value 0. */
  const Epoch: Date := Date(0)

  /** `new Date(text)`: `None` stands for an Invalid Date (a `NaN` time value).
      The parsing rules of the JavaScript engine are not modelled, so the
      parser is a parameter. */
  type DateParser = string -> Option<Date>

  /** `parseDate` with its default fallback: missing, empty, whitespace-only
      and unparseable input all yield the epoch; it never fails. */
  function ParseDate(value: Option<string>, parser: DateParser): (d: Date)
    ensures value.None? || Blank(value.value) ==> d == Epoch
    ensures value.Some? && !Blank(value.value) && parser(value.value).None? ==> d == Epoch
    ensures value.Some? && !Blank(value.value) && parser(value.value).Some? ==>
              d == parser(value.value).value
  {
    if value.None? || value.value == "" then Epoch
    else
      TrimEmptyIffBlank(value.value);
      if Trim(value.value) == "" then Epoch
      else
        match parser(value.value)
        case None => Epoch
        case Some(date) => date
  }

  /** The result is either the fallback or exactly what the parser produced. */
  lemma ParseDateFallbackOrParsed(value: Option<string>, parser: DateParser)
    ensures var d := ParseDate(value, parser);
      d == Epoch || (value.Some? && parser(value.value) == Some(d))
  {
  }

  predicate IsDigit(c: char) {
    '0' as int <= c as int <= '9' as int
  }

  predicate AllDigits(s: string) {
    forall i :: 0 <= i < |s| ==> IsDigit(s[i])
  }

  function DigitValue(c: char): nat
    requires IsDigit(c)
  {
    c as int - '0' as int
  }

  function DigitChar(d: nat): (c: char)
    requires d < 10
    ensures IsDigit(c) && DigitValue(c) == d
  {
    ('0' as int + d) as char
  }

  /** The longest prefix of `s` made of decimal digits. */
  function LeadingDigits(s: string): (d: string)
    ensures |d| <= |s| && d == s[..|d|]
    ensures AllDigits(d)
    ensures |d| < |s| ==> !IsDigit(s[|d|])
    decreases |s|
  {
    if |s| > 0 && IsDigit(s[0]) then [s[0]] + LeadingDigits(s[1..]) else ""
  }

  /** The number a string of decimal digits denotes, most significant first. */
  function DecimalValue(d: string): nat
    requires AllDigits(d)
    decreases |d|
  {
    if |d| == 0 then 0 else DecimalValue(d[..|d| - 1]) * 10 + DigitValue(d[|d| - 1])
  }

  /** The decimal numeral of `n`, without leading zeros. */
  function Decimal(n: nat): (d: string)
    ensures |d| >= 1 && AllDigits(d)
    ensures |d| > 1 ==> d[0] != '0'
    decreases n
  {
    if n < 10 then [DigitChar(n)] else Decimal(n / 10) + [DigitChar(n % 10)]
  }

  /** `String(n)` for an integer `n`. */
  function FormatInt(n: int): string {
    if n < 0 then "-" + Decimal(-n) else Decimal(n)
  }

  /** The text after one leading sign character, if there is one. */
  function Unsigned(t: string): string {
    if |t| > 0 && (t[0] == '-' || t[0] == '+') then t[1..] else t
  }

  /** The number at the start of `t`: one optional sign, then the longest run
      of decimal digits; `None` when there are no digits. */
  function SignedDecimalPrefix(t: string): Option<int> {
    var digits := LeadingDigits(Unsigned(t));
    if |digits| == 0 then None
    else if t[0] == '-' then Some(-(DecimalValue(digits) as int))
    else Some(DecimalValue(digits))
  }

  /** `parseInt(s, 10)` with `NaN` as `None`: leading whitespace is skipped,
      then the signed decimal prefix is read; any text after the digits is
      ignored. */
  function JsParseInt(s: string): (r: Option<int>)
    ensures r.None? <==> LeadingDigits(Unsigned(TrimStart(s))) == ""
    ensures Blank(s) ==> r.None?
    ensures r.Some? && r.value < 0 ==> TrimStart(s)[0] == '-'
  {
    BlankTrimStart(s);
    SignedDecimalPrefix(TrimStart(s))
  }

  /** `parseIntSafe`: `None` (JavaScript `null`) for a missing or blank cell
      and for text with no digits after the whitespace and sign. */
  function ParseIntSafe(value: Option<string>): (r: Option<int>)
    ensures r.None? <==> value.None? || LeadingDigits(Unsigned(TrimStart(value.value))) == ""
    ensures value.None? || Blank(value.value) ==> r.None?
  {
    if value.None? || value.value == "" then None
    else
      TrimEmptyIffBlank(value.value);
      BlankTrimStart(value.value);
      if Trim(value.value) == "" then None
      else JsParseInt(value.value)
  }

  lemma {:induction false} BlankTrimStart(s: string)
    ensures Blank(s) <==> TrimStart(s) == ""
  {
    var t := TrimStart(s);
    if t == "" {
      assert s[..|s|] == s;
    }
  }

  lemma NoSpaceFirstTrimStart(s: string)
    requires |s| > 0 && !IsSpace(s[0])
    ensures TrimStart(s) == s
  {
  }

  /** The digit scan stops at the first character that is not a digit. */
  lemma {:induction false} LeadingDigitsOfNumeral(d: string, tail: string)
    requires AllDigits(d)
    requires |tail| == 0 || !IsDigit(tail[0])
    ensures LeadingDigits(d + tail) == d
    decreases |d|
  {
    if |d| > 0 {
      assert (d + tail)[1..] == d[1..] + tail;
      LeadingDigitsOfNumeral(d[1..], tail);
      assert d == [d[0]] + d[1..];
    } else {
      assert d + tail == tail;
    }
  }

  /** Reading a numeral back gives the number it was written from. */
  lemma {:induction false} DecimalRoundTrip(n: nat)
    ensures DecimalValue(Decimal(n)) == n
    decreases n
  {
    if n >= 10 {
      DecimalRoundTrip(n / 10);
      var d := Decimal(n);
      assert d[..|d| - 1] == Decimal(n / 10);
    }
  }

  /** The magnitude of `n`. */
  function Abs(n: int): nat {
    if n < 0 then -n else n
  }

  /** A printed integer starts with its sign or a digit, never with whitespace,
      and after the sign come exactly its digits. */
  lemma {:induction false} NumeralShape(n: int, tail: string)
    requires |tail| == 0 || !IsDigit(tail[0])
    ensures var s := FormatInt(n) + tail;
      && |s| > 0 && !IsSpace(s[0]) && (s[0] == '-' <==> n < 0)
      && LeadingDigits(Unsigned(s)) == Decimal(Abs(n))
  {
    var d := Decimal(Abs(n));
    var u := d + tail;
    var s := FormatInt(n) + tail;
    LeadingDigitsOfNumeral(d, tail);
    assert IsDigit(u[0]) by {
      assert u[0] == d[0];
    }
    var sign := if n < 0 then "-" else "";
    FormatIntParts(n, tail);
    SignThenDigits(sign, u);
  }

  /** A printed integer is its sign followed by the digits of its magnitude. */
  lemma FormatIntParts(n: int, tail: string)
    ensures FormatInt(n) + tail == (if n < 0 then "-" else "") + (Decimal(Abs(n)) + tail)
  {
  }

  /** An optional sign followed by digits: the sign is what `Unsigned`
      strips, and the text does not start with whitespace. */
  lemma SignThenDigits(sign: string, u: string)
    requires sign == "" || sign == "+" || sign == "-"
    requires |u| > 0 && IsDigit(u[0])
    ensures var s := sign + u;
      && |s| > 0 && !IsSpace(s[0]) && (s[0] == '-' <==> sign == "-") && Unsigned(s) == u
  {
    var s := sign + u;
    if sign == "" {
      assert s == u;
    } else {
      assert s[0] == sign[0] && s[1..] == u;
    }
  }

  /** `parseInt` reads a numeral followed by non-digit text as the numeral's value. */
  lemma {:induction false} JsParseIntOfNumeral(n: int, tail: string)
    requires |tail| == 0 || !IsDigit(tail[0])
    ensures JsParseInt(FormatInt(n) + tail) == Some(n)
  {
    var s := FormatInt(n) + tail;
    NumeralShape(n, tail);
    NoSpaceFirstTrimStart(s);
    DecimalRoundTrip(Abs(n));
  }

  /** `parseInt` reads any run of decimal digits, leading zeros included,
      after leading whitespace and one optional `+` or `-`, as its value with
      that sign; text after the digits is ignored. */
  lemma JsParseIntOfDigits(ws: string, sign: string, d: string, tail: string)
    requires Blank(ws)
    requires sign == "" || sign == "+" || sign == "-"
    requires |d| > 0 && AllDigits(d)
    requires |tail| == 0 || !IsDigit(tail[0])
    ensures JsParseInt(ws + (sign + (d + tail))) ==
      Some(if sign == "-" then -(DecimalValue(d) as int) else DecimalValue(d))
  {
    var s := sign + (d + tail);
    SignedDigitsPrefix(sign, d, tail);
    TrimStartSkipsBlank(ws, s);
    assert JsParseInt(ws + s) == SignedDecimalPrefix(s);
  }

  /** The signed decimal prefix of a sign, digits and a non-digit tail, with
      no whitespace in front. */
  lemma SignedDigitsPrefix(sign: string, d: string, tail: string)
    requires sign == "" || sign == "+" || sign == "-"
    requires |d| > 0 && AllDigits(d)
    requires |tail| == 0 || !IsDigit(tail[0])
    ensures TrimStart(sign + (d + tail)) == sign + (d + tail)
    ensures SignedDecimalPrefix(sign + (d + tail)) ==
      Some(if sign == "-" then -(DecimalValue(d) as int) else DecimalValue(d))
  {
    var u := d + tail;
    var s := sign + u;
    assert IsDigit(u[0]) by {
      assert u[0] == d[0];
    }
    SignThenDigits(sign, u);
    NoSpaceFirstTrimStart(s);
    LeadingDigitsOfNumeral(d, tail);
    SignedDecimalPrefixOf(s, d);
  }

  /** The signed decimal prefix once its digits are known. */
  lemma SignedDecimalPrefixOf(t: string, d: string)
    requires |t| > 0 && |d| > 0 && LeadingDigits(Unsigned(t)) == d
    ensures SignedDecimalPrefix(t) == Some(if t[0] == '-' then -(DecimalValue(d) as int) else DecimalValue(d))
  {
  }

  /** The same through `parseIntSafe`: a cell such as `"007"` or `" +5"` reads
      as 7 or 5. */
  lemma ParseIntSafeOfDigits(ws: string, sign: string, d: string, tail: string)
    requires Blank(ws)
    requires sign == "" || sign == "+" || sign == "-"
    requires |d| > 0 && AllDigits(d)
    requires |tail| == 0 || !IsDigit(tail[0])
    ensures ParseIntSafe(Some(ws + (sign + (d + tail)))) ==
      Some(if sign == "-" then -(DecimalValue(d) as int) else DecimalValue(d))
  {
    var s := sign + (d + tail);
    JsParseIntOfDigits(ws, sign, d, tail);
    ParseIntSafeOfText(ws + s);
    assert !Blank(ws + s) by {
      BlankTrimStart(ws + s);
    }
  }

  /** The value of the digit run the example below uses. */
  lemma ExampleDigitValues()
    ensures AllDigits("007") && DecimalValue("007") == 7
  {
    var d := "007";
    assert DecimalValue(d[..1]) == 0 by {
      assert d[..1][..0] == [];
    }
    assert d[..2][..1] == d[..1];
    assert DecimalValue(d[..2]) == 0;
    assert d[..3][..2] == d[..2] && d[..3] == d;
  }

  /** A leading zero is read as `parseInt` reads it: `"007"` is 7. */
  lemma ParseIntSafeLeadingZero()
    ensures ParseIntSafe(Some("007")) == Some(7)
  {
    ExampleDigitValues();
    ParseIntSafeOfDigits("", "", "007", "");
    assert "" + ("" + ("007" + "")) == "007";
  }

  /** A plus sign in front of the digits changes nothing: `"+5"` reads as `"5"`. */
  lemma ParseIntSafePlusSign(d: string, tail: string)
    requires |d| > 0 && AllDigits(d)
    requires |tail| == 0 || !IsDigit(tail[0])
    ensures ParseIntSafe(Some("+" + (d + tail))) == ParseIntSafe(Some(d + tail))
  {
    ParseIntSafeOfDigits("", "+", d, tail);
    ParseIntSafeOfDigits("", "", d, tail);
    assert "" + ("+" + (d + tail)) == "+" + (d + tail);
    assert "" + ("" + (d + tail)) == d + tail;
    assert "+" != "-" by {
      assert "+"[0] != "-"[0];
    }
  }

  /** `parseIntSafe(String(n) + tail)` is `n` whenever `tail` does not continue
      the digits: the printed form of every integer reads back, and trailing
      text such as `"px"` is ignored as `parseInt` does. */
  lemma ParseIntSafeRoundTrip(n: int, tail: string)
    requires |tail| == 0 || !IsDigit(tail[0])
    ensures ParseIntSafe(Some(FormatInt(n) + tail)) == Some(n)
  {
    var s := FormatInt(n) + tail;
    JsParseIntOfNumeral(n, tail);
    assert s[0] == '-' || IsDigit(s[0]);
    assert !IsSpace(s[0]);
    assert !Blank(s);
    TrimEmptyIffBlank(s);
  }

  lemma ParseIntSafeOfText(s: string)
    ensures ParseIntSafe(Some(s)) == if Blank(s) then None else JsParseInt(s)
  {
    TrimEmptyIffBlank(s);
  }

  /** Whitespace in front of the number is skipped. */
  lemma {:induction false} ParseIntSafeSkipsLeadingSpace(ws: string, s: string)
    requires Blank(ws)
    ensures ParseIntSafe(Some(ws + s)) == ParseIntSafe(Some(s))
  {
    TrimStartSkipsBlank(ws, s);
    assert JsParseInt(ws + s) == JsParseInt(s);
    BlankConcat(ws, s);
    ParseIntSafeOfText(ws + s);
    ParseIntSafeOfText(s);
  }

  lemma {:induction false} TrimStartSkipsBlank(ws: string, s: string)
    requires Blank(ws)
    ensures TrimStart(ws + s) == TrimStart(s)
    decreases |ws|
  {
    if |ws| > 0 {
      assert (ws + s)[1..] == ws[1..] + s;
      TrimStartSkipsBlank(ws[1..], s);
    } else {
      assert ws + s == s;
    }
  }

  /** The example of the loader's documentation: `"42"` reads as 42. */
  lemma ParseIntSafeReadsNumber()
    ensures ParseIntSafe(Some("42")) == Some(42)
  {
    assert Decimal(4) == "4";
    assert Decimal(42) == "42";
    assert FormatInt(42) + "" == "42";
    ParseIntSafeRoundTrip(42, "");
  }

  /** `"abc"`, `""` and a missing cell read as `null`. */
  lemma ParseIntSafeRejects()
    ensures ParseIntSafe(Some("abc")) == None
    ensures ParseIntSafe(Some("")) == None
    ensures ParseIntSafe(None) == None
  {
    var abc := "abc";
    assert !IsSpace(abc[0]) && !IsDigit(abc[0]);
    NoSpaceFirstTrimStart(abc);
    assert Unsigned(abc) == abc;
    assert LeadingDigits(abc) == "";
  }
}

=== FILE: navbar.dfy ===
/** The link table of app/components/navbar.tsx and the rule deciding which
    links are rendered for the signed-in user, if any. */
module Navbar {
  import opened Wrappers
  import opened Seqs

  /** One entry of `links`; `protected` and `role` are optional markers. */
  datatype Link = Link(path: string, caption: string, isProtected: bool, role: Option<string>)

  /** The user of the auth context. */
  datatype User = User(id: int, email: string, role: string)

  const Home := Link("/", "Home", false, None)
  const Database := Link("/database", "Database", false, None)
  const Contact := Link("/contact", "Contact", false, None)
  const Messages := Link("/messages", "Messages", true, None)
  const ChartLink := Link("/chart", "Chart", false, None)
  const Crud := Link("/crud", "CRUD", false, None)
  const Admin := Link("/admin", "Admin", false, Some("ADMIN"))

  /** `links`, in display order. */
  const Links: seq<Link> := [Home, Database, Contact, Messages, ChartLink, Crud, Admin]

  /** Neither marker: the link is for everyone. */
  predicate Public(link: Link) {
    !link.isProtected && link.role.None?
  }

  /** The two early returns of the render map: a protected link needs a user,
      and a link with a (truthy) role needs a user with exactly that role. */
  predicate Shown(link: Link, user: Option<User>) {
    && !(link.isProtected && user.None?)
    && !(link.role.Some? && link.role.value != "" && (user.None? || user.value.role != link.role.value))
  }

  /** The links rendered for `user`, in table order. */
  function VisibleLinks(user: Option<User>): (r: seq<Link>)
    ensures |r| <= |Links|
    ensures forall i :: 0 <= i < |r| ==> Shown(r[i], user)
  {
    Filter(Links, link => Shown(link, user))
  }

  /** A link is rendered exactly when it is in the table and passes both
      checks. */
  lemma VisibleIff(user: Option<User>, link: Link)
    ensures link in VisibleLinks(user) <==> link in Links && Shown(link, user)
  {
    FilterMembership(Links, link => Shown(link, user), link);
  }

  /** Without a user no protected link and no role link is rendered. */
  lemma AnonymousSeesNoMarkedLink(link: Link)
    requires link in VisibleLinks(None)
    ensures !link.isProtected
    ensures link.role.None? || link.role.value == ""
  {
  }

  /** A link with a role is rendered only for a user holding that role. */
  lemma RoleLinkNeedsRole(user: Option<User>, link: Link)
    requires link in VisibleLinks(user)
    requires link.role.Some? && link.role.value != ""
    ensures user.Some? && user.value.role == link.role.value
  {
    VisibleIff(user, link);
  }

  /** A link with neither marker is rendered for everyone. */
  lemma PublicAlwaysShown(user: Option<User>, link: Link)
    requires link in Links && Public(link)
    ensures link in VisibleLinks(user)
  {
    VisibleIff(user, link);
  }

  /** The rendered links are a selection of the table in its own order: the
      k-th rendered link is the table entry at a strictly increasing index. */
  lemma VisibleKeepsOrder(user: Option<User>)
    ensures exists ix: seq<nat> ::
      && |ix| == |VisibleLinks(user)|
      && StrictlyIncreasing(ix)
      && forall k :: 0 <= k < |ix| ==> ix[k] < |Links| && VisibleLinks(user)[k] == Links[ix[k]]
  {
    var keep := link => Shown(link, user);
    FilterIsOrderedSelection(Links, keep);
    var ix := Kept(Links, keep);
    assert |ix| == |VisibleLinks(user)|;
  }

  /** Keeps the link when it is shown. */
  function Only(link: Link, user: Option<User>): seq<Link> {
    if Shown(link, user) then [link] else []
  }

  /** The filter over the seven links written out one link at a time. */
  lemma {:induction false} VisibleUnfolded(user: Option<User>)
    ensures VisibleLinks(user) ==
      Only(Home, user) + (Only(Database, user) + (Only(Contact, user) + (Only(Messages, user)
      + (Only(ChartLink, user) + (Only(Crud, user) + Only(Admin, user))))))
  {
    var keep := link => Shown(link, user);
    var s6 := [Admin];
    var s5 := [Crud] + s6;
    var s4 := [ChartLink] + s5;
    var s3 := [Messages] + s4;
    var s2 := [Contact] + s3;
    var s1 := [Database] + s2;
    assert Links == [Home] + s1;
    assert s6[1..] == [];
    assert Filter(s6, keep) == Only(Admin, user);
    assert s5[1..] == s6;
    assert Filter(s5, keep) == Only(Crud, user) + Filter(s6, keep);
    assert s4[1..] == s5;
    assert Filter(s4, keep) == Only(ChartLink, user) + Filter(s5, keep);
    assert s3[1..] == s4;
    assert Filter(s3, keep) == Only(Messages, user) + Filter(s4, keep);
    assert s2[1..] == s3;
    assert Filter(s2, keep) == Only(Contact, user) + Filter(s3, keep);
    assert s1[1..] == s2;
    assert Filter(s1, keep) == Only(Database, user) + Filter(s2, keep);
    assert Links[1..] == s1;
    assert Filter(Links, keep) == Only(Home, user) + Filter(s1, keep);
  }

  /** A visitor who is not signed in sees Home, Database, Contact, Chart and CRUD. */
  lemma AnonymousLinks()
    ensures VisibleLinks(None) == [Home, Database, Contact, ChartLink, Crud]
  {
    VisibleUnfolded(None);
  }

  /** An ADMIN user sees all seven links. */
  lemma AdminSeesAll(id: int, email: string)
    ensures VisibleLinks(Some(User(id, email, "ADMIN"))) == Links
  {
    VisibleUnfolded(Some(User(id, email, "ADMIN")));
  }

  /** Any other signed-in user sees everything but Admin. */
  lemma NonAdminLinks(user: User)
    requires user.role != "ADMIN"
    ensures VisibleLinks(Some(user)) == [Home, Database, Contact, Messages, ChartLink, Crud]
  {
    VisibleUnfolded(Some(user));
  }

  /** Signing in only adds links: whatever an anonymous visitor sees, every
      user sees too. */
  lemma SignInAddsLinks(user: User, link: Link)
    requires link in VisibleLinks(None)
    ensures link in VisibleLinks(Some(user))
  {
    VisibleIff(None, link);
    VisibleIff(Some(user), link);
  }
}

=== FILE: seeder.dfy ===
/** The `Seeder` of db-initializer.ts and the argument handling of its `main`:
    each entity's table is optionally emptied, left alone when it already has
    rows, and otherwise filled from its tab-separated file. */
module Seeder {
  import opened Wrappers
  import opened Seqs
  import opened Text
  import opened Fields
  import opened Csv
  import opened Batch
  import opened Table

  /** `BATCH_SIZE`: how many results go into one `createMany`. */
  const BatchSize: nat := 100

  const GpPath := "prisma/seed-data/gp.csv"
  const DriverPath := "prisma/seed-data/pilota.csv"
  const ResultPath := "prisma/seed-data/eredmeny.csv"

  /** A Grand Prix, unique by date. */
  datatype GrandPrix = GrandPrix(date: Date, name: string, country: string)

  /** A driver, unique by the id taken from the file. */
  datatype Driver = Driver(id: int, name: string, sex: string, birthDate: Date, country: string)

  /** One driver's result at one Grand Prix; no position means no finish. */
  datatype RaceResult = RaceResult(
    gpDate: Date, driverId: int, position: Option<int>,
    mistake: Option<string>, team: Option<string>, carType: Option<string>, engine: Option<string>)

  function GpKey(g: GrandPrix): Date {
    g.date
  }

  function DriverKey(d: Driver): int {
    d.id
  }

  /** `const [_header, ...rows] = csvData`: the rows after the header. */
  function DataRows(rows: seq<Row>): (body: seq<Row>)
    ensures |body| == if |rows| == 0 then 0 else |rows| - 1
    ensures forall k :: 0 <= k < |body| ==> body[k] == rows[k + 1]
  {
    if |rows| == 0 then [] else rows[1..]
  }

  /** `cleanString(cell) || null`: an optional text column. */
  function OptionalText(cell: Option<string>): (t: Option<string>)
    ensures t.None? <==> cell.None? || Blank(cell.value)
    ensures t.Some? ==> t.value == CleanString(cell)
  {
    var s := CleanString(cell);
    if s == "" then None else Some(s)
  }

  /** A text column read from cell `i`: empty exactly when the cell is
      missing or blank; otherwise the cell with every `\r` removed and then
      only whitespace cut from either end, leaving no `\r` and no outer
      whitespace. */
  predicate CleanedFrom(text: string, row: Row, i: nat) {
    && '\r' !in text
    && (|text| == 0 || (!IsSpace(text[0]) && !IsSpace(text[|text| - 1])))
    && (text == "" <==> |row| <= i || Blank(row[i]))
    && (|row| > i ==> OuterSpaceCut(RemoveAll(row[i], '\r'), text))
  }

  /** A date column read from cell `i`: what the parser makes of a present,
      non-blank cell, and the epoch fallback when the cell is missing, blank
      or unparseable. */
  predicate DatedFrom(d: Date, row: Row, i: nat, parser: DateParser) {
    && (|row| > i && !Blank(row[i]) && parser(row[i]).Some? ==> d == parser(row[i]).value)
    && (|row| <= i || Blank(row[i]) || parser(row[i]).None? ==> d == Epoch)
  }

  /** An optional text column read from cell `i`: `null` exactly when the
      cell is missing or blank, and otherwise the cleaned cell. */
  predicate OptionalFrom(t: Option<string>, row: Row, i: nat) {
    && (t.None? <==> |row| <= i || Blank(row[i]))
    && (t.Some? ==> CleanedFrom(t.value, row, i))
  }

  lemma CleanCell(row: Row, i: nat)
    ensures CleanedFrom(CleanString(Cell(row, i)), row, i)
  {
    if |row| > i {
      CleanStringCutsOuterSpace(row[i]);
    }
  }

  lemma DateCell(row: Row, i: nat, parser: DateParser)
    ensures DatedFrom(ParseDate(Cell(row, i), parser), row, i, parser)
  {
  }

  lemma OptionalCell(row: Row, i: nat)
    ensures OptionalFrom(OptionalText(Cell(row, i)), row, i)
  {
    CleanCell(row, i);
  }

  /** The `gps` mapping: columns date, name, country. */
  function ToGrandPrix(row: Row, parser: DateParser): (g: GrandPrix)
    ensures DatedFrom(g.date, row, 0, parser)
    ensures CleanedFrom(g.name, row, 1) && CleanedFrom(g.country, row, 2)
  {
    DateCell(row, 0, parser);
    CleanCell(row, 1);
    CleanCell(row, 2);
    GrandPrix(ParseDate(Cell(row, 0), parser), CleanString(Cell(row, 1)), CleanString(Cell(row, 2)))
  }

  /** The `drivers` mapping: columns id, name, sex, birth date, country; an
      id that is not a number becomes 0. */
  function ToDriver(row: Row, parser: DateParser): (d: Driver)
    ensures ParseIntSafe(Cell(row, 0)).None? ==> d.id == 0
    ensures ParseIntSafe(Cell(row, 0)).Some? ==> d.id == ParseIntSafe(Cell(row, 0)).value
    ensures DatedFrom(d.birthDate, row, 3, parser)
    ensures CleanedFrom(d.name, row, 1) && CleanedFrom(d.sex, row, 2) && CleanedFrom(d.country, row, 4)
  {
    DateCell(row, 3, parser);
    CleanCell(row, 1);
    CleanCell(row, 2);
    CleanCell(row, 4);
    Driver(
      ParseIntSafe(Cell(row, 0)).GetOr(0),
      CleanString(Cell(row, 1)), CleanString(Cell(row, 2)),
      ParseDate(Cell(row, 3), parser), CleanString(Cell(row, 4)))
  }

  /** The `results` mapping: columns Grand Prix date, driver id, position,
      mistake, team, type, engine. The position is `null` exactly when its
      cell has no number, and a driver id that is not a number becomes 0. */
  function ToRaceResult(row: Row, parser: DateParser): (r: RaceResult)
    ensures DatedFrom(r.gpDate, row, 0, parser)
    ensures ParseIntSafe(Cell(row, 1)).None? ==> r.driverId == 0
    ensures ParseIntSafe(Cell(row, 1)).Some? ==> r.driverId == ParseIntSafe(Cell(row, 1)).value
    ensures r.position == ParseIntSafe(Cell(row, 2))
    ensures OptionalFrom(r.mistake, row, 3) && OptionalFrom(r.team, row, 4)
    ensures OptionalFrom(r.carType, row, 5) && OptionalFrom(r.engine, row, 6)
  {
    DateCell(row, 0, parser);
    OptionalCell(row, 3);
    OptionalCell(row, 4);
    OptionalCell(row, 5);
    OptionalCell(row, 6);
    RaceResult(
      ParseDate(Cell(row, 0), parser),
      ParseIntSafe(Cell(row, 1)).GetOr(0),
      ParseIntSafe(Cell(row, 2)),
      OptionalText(Cell(row, 3)), OptionalText(Cell(row, 4)),
      OptionalText(Cell(row, 5)), OptionalText(Cell(row, 6)))
  }

  /** A numeric id is read as its number; anything else becomes 0, so
      rows with unreadable ids collide on id 0. */
  lemma DriverIdMapping(row: Row, parser: DateParser)
    ensures ParseIntSafe(Cell(row, 0)).None? ==> ToDriver(row, parser).id == 0
    ensures forall n: int :: |row| > 0 && row[0] == FormatInt(n) ==> ToDriver(row, parser).id == n
  {
    forall n: int | |row| > 0 && row[0] == FormatInt(n) ensures ToDriver(row, parser).id == n {
      assert FormatInt(n) + "" == FormatInt(n);
      ParseIntSafeRoundTrip(n, "");
    }
  }

  /** The `.map` over the data rows: one record per row, in row order. */
  function Records<R>(rows: seq<Row>, toRecord: Row -> R): seq<R> {
    seq(|rows|, i requires 0 <= i < |rows| => toRecord(rows[i]))
  }

  function GpRecords(rows: seq<Row>, parser: DateParser): seq<GrandPrix> {
    Records(rows, row => ToGrandPrix(row, parser))
  }

  function DriverRecords(rows: seq<Row>, parser: DateParser): seq<Driver> {
    Records(rows, row => ToDriver(row, parser))
  }

  function ResultRecords(rows: seq<Row>, parser: DateParser): seq<RaceResult> {
    Records(rows, row => ToRaceResult(row, parser))
  }

  /** The header is dropped and every other row of the file becomes exactly
      one record, in file order. */
  lemma RecordPerDataRow<R>(rows: seq<Row>, toRecord: Row -> R)
    requires |rows| > 0
    ensures |Records(DataRows(rows), toRecord)| == |rows| - 1
    ensures forall k :: 1 <= k < |rows| ==> Records(DataRows(rows), toRecord)[k - 1] == toRecord(rows[k])
  {
    var body := DataRows(rows);
    forall k | 1 <= k < |rows| ensures Records(body, toRecord)[k - 1] == toRecord(rows[k]) {
      assert body[k - 1] == rows[k];
    }
  }

  /** The database: one table per entity. */
  datatype Db = Db(gps: seq<GrandPrix>, drivers: seq<Driver>, results: seq<RaceResult>)

  /** What the loader reads: the seed files by path (a path that is absent
      cannot be read) and the JavaScript date parser. */
  datatype Env = Env(files: map<string, string>, parseDate: DateParser)

  /** How a load ends: `Aborted` is an error thrown to `main`, which exits
      with status 1; either way `db` is what the database then holds. */
  datatype Outcome = Completed(db: Db) | Aborted(db: Db)

  datatype Entity = GPs | Drivers | Results

  /** `readAndParseCSV(path)`; `None` when the file cannot be read. */
  function ReadCsv(env: Env, path: string): Option<seq<Row>> {
    if path in env.files then Some(ParseCsv(env.files[path])) else None
  }

  /** `deleteMany` when `dropData` is set, then the `count` check: `None`
      when the load is skipped, otherwise the table the insert starts from,
      which is always empty. */
  function Gate<R>(table: seq<R>, drop: bool): (start: Option<seq<R>>)
    ensures start.None? <==> !drop && |table| > 0
    ensures start.Some? ==> start.value == []
  {
    var cleared := if drop then [] else table;
    if |cleared| > 0 && !drop then None else Some(cleared)
  }

  /** `results` are inserted batch after batch; a result has no unique
      key besides its generated id, so every record of a batch is stored. */
  function AppendBatches(table: seq<RaceResult>, batches: seq<seq<RaceResult>>): seq<RaceResult>
    decreases |batches|
  {
    if |batches| == 0 then table else AppendBatches(table + batches[0], batches[1..])
  }

  lemma {:induction false} AppendBatchesIsAppendAll(table: seq<RaceResult>, batches: seq<seq<RaceResult>>)
    ensures AppendBatches(table, batches) == table + Flatten(batches)
    decreases |batches|
  {
    if |batches| > 0 {
      AppendBatchesIsAppendAll(table + batches[0], batches[1..]);
      assert table + batches[0] + Flatten(batches[1..]) == table + Flatten(batches);
    }
  }

  /** `loadGPData`: the other tables stay; a populated table without
      `dropData` is left alone; the load aborts, with the table emptied,
      exactly when it goes ahead and the file cannot be read; otherwise the
      table holds, for every date of the file, the first GP of the file with
      that date and nothing else. */
  function LoadGpData(db: Db, drop: bool, env: Env): (o: Outcome)
    ensures o.db.drivers == db.drivers && o.db.results == db.results
    ensures !drop && |db.gps| > 0 ==> o == Completed(db)
    ensures o.Aborted? <==> (drop || |db.gps| == 0) && GpPath !in env.files
    ensures o.Aborted? ==> o.db.gps == []
    ensures (drop || |db.gps| == 0) && GpPath in env.files ==>
      var records := GpRecords(DataRows(ParseCsv(env.files[GpPath])), env.parseDate);
      && UniqueKeys(o.db.gps, GpKey)
      && (forall g :: g in o.db.gps ==> g in records && FirstOfKey(records, g, GpKey))
      && (forall g :: g in records ==> GpKey(g) in Keys(o.db.gps, GpKey))
  {
    match Gate(db.gps, drop)
    case None => Completed(db)
    case Some(start) =>
      match ReadCsv(env, GpPath)
      case None => Aborted(db.(gps := start))
      case Some(csv) =>
        Completed(db.(gps := InsertSkipDuplicates(start, GpRecords(DataRows(csv), env.parseDate), GpKey)))
  }

  /** `loadDriverData`: as `loadGPData`, with drivers unique by id; the
      first driver of the file with an id is the one stored. */
  function LoadDriverData(db: Db, drop: bool, env: Env): (o: Outcome)
    ensures o.db.gps == db.gps && o.db.results == db.results
    ensures !drop && |db.drivers| > 0 ==> o == Completed(db)
    ensures o.Aborted? <==> (drop || |db.drivers| == 0) && DriverPath !in env.files
    ensures o.Aborted? ==> o.db.drivers == []
    ensures (drop || |db.drivers| == 0) && DriverPath in env.files ==>
      var records := DriverRecords(DataRows(ParseCsv(env.files[DriverPath])), env.parseDate);
      && UniqueKeys(o.db.drivers, DriverKey)
      && (forall d :: d in o.db.drivers ==> d in records && FirstOfKey(records, d, DriverKey))
      && (forall d :: d in records ==> DriverKey(d) in Keys(o.db.drivers, DriverKey))
  {
    match Gate(db.drivers, drop)
    case None => Completed(db)
    case Some(start) =>
      match ReadCsv(env, DriverPath)
      case None => Aborted(db.(drivers := start))
      case Some(csv) =>
        Completed(db.(drivers := InsertSkipDuplicates(start, DriverRecords(DataRows(csv), env.parseDate), DriverKey)))
  }

  /** `loadResultData`, inserting through `processBatch` with `BATCH_SIZE`:
      gated as the other loads, and once it goes ahead on a readable file the
      table holds exactly the file's records, in file order. */
  function LoadResultData(db: Db, drop: bool, env: Env): (o: Outcome)
    ensures o.db.gps == db.gps && o.db.drivers == db.drivers
    ensures !drop && |db.results| > 0 ==> o == Completed(db)
    ensures o.Aborted? <==> (drop || |db.results| == 0) && ResultPath !in env.files
    ensures o.Aborted? ==> o.db.results == []
    ensures (drop || |db.results| == 0) && ResultPath in env.files ==>
      o.db.results == ResultRecords(DataRows(ParseCsv(env.files[ResultPath])), env.parseDate)
  {
    match Gate(db.results, drop)
    case None => Completed(db)
    case Some(start) =>
      match ReadCsv(env, ResultPath)
      case None => Aborted(db.(results := start))
      case Some(csv) =>
        var records := ResultRecords(DataRows(csv), env.parseDate);
        AppendBatchesIsAppendAll(start, Batches(records, BatchSize));
        assert start + records == records;
        Completed(db.(results := AppendBatches(start, Batches(records, BatchSize))))
  }

  function Load(db: Db, e: Entity, drop: bool, env: Env): Outcome {
    match e
    case GPs => LoadGpData(db, drop, env)
    case Drivers => LoadDriverData(db, drop, env)
    case Results => LoadResultData(db, drop, env)
  }

  /** The records a readable file of entity `e` yields. */
  function FileRecordCount(csv: seq<Row>, e: Entity, parser: DateParser): nat {
    match e
    case GPs => |GpRecords(DataRows(csv), parser)|
    case Drivers => |DriverRecords(DataRows(csv), parser)|
    case Results => |ResultRecords(DataRows(csv), parser)|
  }

  function Size(db: Db, e: Entity): nat {
    match e
    case GPs => |db.gps|
    case Drivers => |db.drivers|
    case Results => |db.results|
  }

  function Path(e: Entity): string {
    match e
    case GPs => GpPath
    case Drivers => DriverPath
    case Results => ResultPath
  }

  /** Two databases hold the same rows for entity `e`. */
  predicate SameTable(a: Db, b: Db, e: Entity) {
    match e
    case GPs => a.gps == b.gps
    case Drivers => a.drivers == b.drivers
    case Results => a.results == b.results
  }

  /** The unique constraints of the GP and Driver tables. */
  predicate KeysHold(db: Db) {
    UniqueKeys(db.gps, GpKey) && UniqueKeys(db.drivers, DriverKey)
  }

  /** The gate and the insert of one entity's load:
      - it touches no other entity's table;
      - with `dropData` unset and rows present it changes nothing;
      - otherwise it starts from an empty table (dropping first when asked),
        aborts with that empty table when the file cannot be read, and else
        stores at most one row per data row of the file;
      - the unique constraints keep holding. */
  lemma LoadContract(db: Db, e: Entity, drop: bool, env: Env)
    ensures var o := Load(db, e, drop, env);
      && (forall e' :: e' != e ==> SameTable(o.db, db, e'))
      && (!drop && Size(db, e) > 0 ==> o == Completed(db))
      && ((drop || Size(db, e) == 0) && Path(e) !in env.files ==> o.Aborted? && Size(o.db, e) == 0)
      && ((drop || Size(db, e) == 0) && Path(e) in env.files ==>
            o.Completed? && Size(o.db, e) <= FileRecordCount(ParseCsv(env.files[Path(e)]), e, env.parseDate))
      && (KeysHold(db) ==> KeysHold(o.db))
  {
    var o := Load(db, e, drop, env);
    forall e' | e' != e ensures SameTable(o.db, db, e') {
    }
    if e == Results && (drop || Size(db, e) == 0) && Path(e) in env.files {
      var records := ResultRecords(DataRows(ParseCsv(env.files[ResultPath])), env.parseDate);
      AppendBatchesIsAppendAll([], Batches(records, BatchSize));
    }
  }

  /** With `dropData` set, the table ends up holding exactly what the file
      yields when inserted into an empty table: GPs and drivers with later
      duplicates of a key skipped, results all of them. */
  lemma DropReloads(db: Db, drop: bool, env: Env)
    requires drop
    ensures GpPath in env.files ==>
      var csv := ParseCsv(env.files[GpPath]);
      LoadGpData(db, drop, env) ==
        Completed(db.(gps := InsertSkipDuplicates([], GpRecords(DataRows(csv), env.parseDate), GpKey)))
    ensures DriverPath in env.files ==>
      var csv := ParseCsv(env.files[DriverPath]);
      LoadDriverData(db, drop, env) ==
        Completed(db.(drivers := InsertSkipDuplicates([], DriverRecords(DataRows(csv), env.parseDate), DriverKey)))
    ensures ResultPath in env.files ==>
      var csv := ParseCsv(env.files[ResultPath]);
      LoadResultData(db, drop, env) == Completed(db.(results := ResultRecords(DataRows(csv), env.parseDate)))
  {
    if ResultPath in env.files {
      var records := ResultRecords(DataRows(ParseCsv(env.files[ResultPath])), env.parseDate);
      AppendBatchesIsAppendAll([], Batches(records, BatchSize));
      assert [] + records == records;
    }
  }

  /** A load reads only its own table: two databases that agree on it load the
      same way and end up agreeing on it. */
  lemma LoadIsLocal(a: Db, b: Db, e: Entity, drop: bool, env: Env)
    requires SameTable(a, b, e)
    ensures Load(a, e, drop, env).Completed? == Load(b, e, drop, env).Completed?
    ensures SameTable(Load(a, e, drop, env).db, Load(b, e, drop, env).db, e)
  {
  }

  /** Loading an entity a second time changes nothing more and ends the same
      way: after a completed load the table is either untouched, or freshly
      filled (and refilled identically, or left alone as non-empty), and a load
      that aborted aborts again on the same unreadable file. */
  lemma LoadIdempotent(db: Db, e: Entity, drop: bool, env: Env)
    ensures Load(Load(db, e, drop, env).db, e, drop, env) == Load(db, e, drop, env)
  {
  }

  /** Which loads `main` runs, and whether it drops first. */
  datatype Plan = Plan(drop: bool, steps: seq<Entity>)

  function Flag(e: Entity): string {
    match e
    case GPs => "--load-gps"
    case Drivers => "--load-drivers"
    case Results => "--load-results"
  }

  function Rank(e: Entity): nat {
    match e
    case GPs => 0
    case Drivers => 1
    case Results => 2
  }

  /** `main`'s reading of `process.argv.slice(2)`: no arguments or `--all`
      runs `seedAll` (GP, then Driver, then Result); otherwise each
      `--load-...` flag present selects its load, in that same fixed order.
      `--drop-data` applies to every selected load. */
  function PlanFor(args: seq<string>): (p: Plan)
    ensures p.drop <==> "--drop-data" in args
    ensures forall j, k :: 0 <= j < k < |p.steps| ==> Rank(p.steps[j]) < Rank(p.steps[k])
    ensures GPs in p.steps <==> |args| == 0 || "--all" in args || Flag(GPs) in args
    ensures Drivers in p.steps <==> |args| == 0 || "--all" in args || Flag(Drivers) in args
    ensures Results in p.steps <==> |args| == 0 || "--all" in args || Flag(Results) in args
  {
    var drop := "--drop-data" in args;
    if "--all" in args || |args| == 0 then
      Plan(drop, [GPs, Drivers, Results])
    else
      var gps := if "--load-gps" in args then [GPs] else [];
      var drivers := if "--load-drivers" in args then [Drivers] else [];
      var results := if "--load-results" in args then [Results] else [];
      var steps := gps + drivers + results;
      assert forall e :: e in steps <==> e in gps || e in drivers || e in results;
      Plan(drop, steps)
  }

  /** The load of `e` goes ahead (a drop was asked or the table is empty)
      and its file cannot be read: the error that ends the run. */
  predicate Fails(db: Db, e: Entity, drop: bool, env: Env) {
    (drop || Size(db, e) == 0) && Path(e) !in env.files
  }

  /** A completed load changes which loads fail for no entity. */
  lemma FailsAfterLoad(db: Db, e: Entity, drop: bool, env: Env)
    requires Load(db, e, drop, env).Completed?
    ensures forall e' :: Fails(Load(db, e, drop, env).db, e', drop, env) == Fails(db, e', drop, env)
  {
    LoadContract(db, e, drop, env);
    var mid := Load(db, e, drop, env).db;
    forall e' ensures Fails(mid, e', drop, env) == Fails(db, e', drop, env) {
      if e' != e {
        assert SameTable(mid, db, e');
        match e'
        case GPs =>
        case Drivers =>
        case Results =>
      }
    }
  }

  /** After a completed load of `e`, loading any entity `e'` leaves its table
      as loading it from the original database would. */
  lemma LoadAfterLoad(db: Db, e: Entity, e': Entity, drop: bool, env: Env)
    requires Load(db, e, drop, env).Completed?
    ensures SameTable(Load(Load(db, e, drop, env).db, e', drop, env).db, Load(db, e', drop, env).db, e')
  {
    var mid := Load(db, e, drop, env).db;
    if e' == e {
      LoadIdempotent(db, e, drop, env);
    } else {
      LoadContract(db, e, drop, env);
      LoadIsLocal(mid, db, e', drop, env);
    }
  }

  /** The loads run one after another; the first error aborts the rest, and
      what earlier loads stored stays stored:
      - the run completes exactly when no step's load fails;
      - after a completed run every loaded table is what its own load makes
        of the starting database;
      - a table no step loads is left alone;
      - the GP and Driver keys stay unique whether the run completes or aborts. */
  function RunSteps(db: Db, steps: seq<Entity>, drop: bool, env: Env): (o: Outcome)
    ensures o.Completed? <==> forall e :: e in steps ==> !Fails(db, e, drop, env)
    ensures o.Completed? ==> forall e :: e in steps ==> SameTable(o.db, Load(db, e, drop, env).db, e)
    ensures forall e :: e !in steps ==> SameTable(o.db, db, e)
    ensures KeysHold(db) ==> KeysHold(o.db)
    decreases |steps|, 1
  {
    if |steps| == 0 then Completed(db)
    else
      var first := Load(db, steps[0], drop, env);
      LoadContract(db, steps[0], drop, env);
      if first.Aborted? then
        assert steps[0] in steps && Fails(db, steps[0], drop, env);
        first
      else
        var o := RunSteps(first.db, steps[1..], drop, env);
        FrameAcrossStep(db, first.db, o.db, steps);
        StepAcross(db, steps, drop, env);
        o
  }

  /** The completion and contents clauses of `RunSteps` for a run whose first
      load completed, from those of the rest of the run. */
  lemma StepAcross(db: Db, steps: seq<Entity>, drop: bool, env: Env)
    requires |steps| > 0 && Load(db, steps[0], drop, env).Completed?
    ensures var mid := Load(db, steps[0], drop, env).db;
      var o := RunSteps(mid, steps[1..], drop, env);
      && (o.Completed? <==> forall e :: e in steps ==> !Fails(db, e, drop, env))
      && (o.Completed? ==> forall e :: e in steps ==> SameTable(o.db, Load(db, e, drop, env).db, e))
    decreases |steps|, 0
  {
    var first, rest := steps[0], steps[1..];
    var mid := Load(db, first, drop, env).db;
    var o := RunSteps(mid, rest, drop, env);
    LoadContract(db, first, drop, env);
    FailsAfterLoad(db, first, drop, env);
    assert forall e :: e in steps <==> e == first || e in rest;
    if o.Completed? {
      forall e | e in steps ensures SameTable(o.db, Load(db, e, drop, env).db, e) {
        LoadAfterLoad(db, first, e, drop, env);
        if e !in rest {
          assert SameTable(o.db, mid, e);
          match e
          case GPs =>
          case Drivers =>
          case Results =>
        }
      }
    }
  }

  /** Tables left alone by the first step and by the rest are left alone by
      the whole run. */
  lemma FrameAcrossStep(db: Db, mid: Db, last: Db, steps: seq<Entity>)
    requires |steps| > 0
    requires forall e :: e != steps[0] ==> SameTable(mid, db, e)
    requires forall e :: e !in steps[1..] ==> SameTable(last, mid, e)
    ensures forall e :: e !in steps ==> SameTable(last, db, e)
  {
    forall e | e !in steps ensures SameTable(last, db, e) {
      assert e != steps[0] && e !in steps[1..];
      assert SameTable(mid, db, e) && SameTable(last, mid, e);
      match e
      case GPs =>
      case Drivers =>
      case Results =>
    }
  }

  /** Running a list of loads and then another is running them joined: an
      abort in the first part skips every load of the second, and otherwise
      the second part starts from what the first stored. */
  lemma {:induction false} RunStepsAppend(db: Db, steps: seq<Entity>, more: seq<Entity>, drop: bool, env: Env)
    ensures var o := RunSteps(db, steps, drop, env);
      RunSteps(db, steps + more, drop, env) == if o.Aborted? then o else RunSteps(o.db, more, drop, env)
    decreases |steps|
  {
    if |steps| == 0 {
      assert steps + more == more;
    } else {
      assert (steps + more)[0] == steps[0];
      assert (steps + more)[1..] == steps[1..] + more;
      var first := Load(db, steps[0], drop, env);
      if first.Completed? {
        RunStepsAppend(first.db, steps[1..], more, drop, env);
      }
    }
  }

  /** `main` runs the load of `e`: no arguments, `--all`, or `e`'s own flag. */
  predicate Selected(args: seq<string>, e: Entity) {
    |args| == 0 || "--all" in args || Flag(e) in args
  }

  lemma PlanSelects(args: seq<string>)
    ensures forall e :: e in PlanFor(args).steps <==> Selected(args, e)
  {
    var p := PlanFor(args);
    forall e ensures e in p.steps <==> Selected(args, e) {
      match e
      case GPs =>
      case Drivers =>
      case Results =>
    }
  }

  /** One run of the seed script with command-line arguments `args`, with
      `--drop-data` applying to every load:
      - it completes exactly when no selected load fails, and otherwise ends
        with exit status 1;
      - after a completed run every selected table is what its own load makes
        of the starting database;
      - the table of an entity that is not selected is left alone;
      - the GP and Driver keys stay unique. */
  function Seed(db: Db, args: seq<string>, env: Env): (o: Outcome)
    ensures o.Completed? <==> forall e :: Selected(args, e) ==> !Fails(db, e, "--drop-data" in args, env)
    ensures o.Completed? ==>
      forall e :: Selected(args, e) ==> SameTable(o.db, Load(db, e, "--drop-data" in args, env).db, e)
    ensures forall e :: !Selected(args, e) ==> SameTable(o.db, db, e)
    ensures KeysHold(db) ==> KeysHold(o.db)
  {
    var plan := PlanFor(args);
    PlanSelects(args);
    RunSteps(db, plan.steps, plan.drop, env)
  }

  /** `--all --drop-data` with the three files readable: the run completes,
      and each table holds exactly what its file yields inserted into an
      empty table. */
  lemma SeedAllWithDrop(db: Db, args: seq<string>, env: Env)
    requires "--all" in args && "--drop-data" in args
    requires GpPath in env.files && DriverPath in env.files && ResultPath in env.files
    ensures Seed(db, args, env) == Completed(Db(
      InsertSkipDuplicates([], GpRecords(DataRows(ParseCsv(env.files[GpPath])), env.parseDate), GpKey),
      InsertSkipDuplicates([], DriverRecords(DataRows(ParseCsv(env.files[DriverPath])), env.parseDate), DriverKey),
      ResultRecords(DataRows(ParseCsv(env.files[ResultPath])), env.parseDate)))
  {
    var o := Seed(db, args, env);
    forall e ensures Selected(args, e) && !Fails(db, e, true, env) {
      match e
      case GPs =>
      case Drivers =>
      case Results =>
    }
    DropReloads(db, true, env);
    assert SameTable(o.db, Load(db, GPs, true, env).db, GPs);
    assert SameTable(o.db, Load(db, Drivers, true, env).db, Drivers);
    assert SameTable(o.db, Load(db, Results, true, env).db, Results);
  }

  lemma SameTablesSameDb(a: Db, b: Db)
    requires SameTable(a, b, GPs) && SameTable(a, b, Drivers) && SameTable(a, b, Results)
    ensures a == b
  {
  }

  /** Running the same loads twice ends exactly as running them once. */
  lemma {:induction false} RunStepsIdempotent(db: Db, steps: seq<Entity>, drop: bool, env: Env)
    requires forall j, k :: 0 <= j < k < |steps| ==> steps[j] != steps[k]
    ensures RunSteps(RunSteps(db, steps, drop, env).db, steps, drop, env) == RunSteps(db, steps, drop, env)
    decreases |steps|
  {
    if |steps| > 0 {
      var e, rest := steps[0], steps[1..];
      LoadIdempotent(db, e, drop, env);
      var o := Load(db, e, drop, env);
      if o.Completed? {
        var d1 := o.db;
        var fin := RunSteps(d1, rest, drop, env).db;
        assert e !in rest by {
          forall k | 0 <= k < |rest| ensures rest[k] != e {
            assert rest[k] == steps[k + 1];
          }
        }
        LoadIsLocal(fin, d1, e, drop, env);
        LoadContract(fin, e, drop, env);
        var again := Load(fin, e, drop, env);
        SameTablesSameDb(again.db, fin);
        assert forall j, k :: 0 <= j < k < |rest| ==> rest[j] != rest[k] by {
          forall j, k | 0 <= j < k < |rest| ensures rest[j] != rest[k] {
            assert rest[j] == steps[j + 1] && rest[k] == steps[k + 1];
          }
        }
        RunStepsIdempotent(d1, rest, drop, env);
      }
    }
  }

  /** Running the seed script a second time with the same arguments and
      files leaves the database as the first run did and exits the same way:
      without `--drop-data` the second run finds every table it loaded
      populated (or loads the same nothing again), and with it the second
      run drops and reloads the same rows. */
  lemma SeedIdempotent(db: Db, args: seq<string>, env: Env)
    ensures Seed(Seed(db, args, env).db, args, env) == Seed(db, args, env)
  {
    var plan := PlanFor(args);
    forall j, k | 0 <= j < k < |plan.steps| ensures plan.steps[j] != plan.steps[k] {
      assert Rank(plan.steps[j]) < Rank(plan.steps[k]);
    }
    RunStepsIdempotent(db, plan.steps, plan.drop, env);
  }

  /** Without `--drop-data`, a run over a database whose tables all hold rows
      stores nothing and succeeds. */
  lemma SeedWithoutDropOnPopulatedDb(db: Db, args: seq<string>, env: Env)
    requires "--drop-data" !in args
    requires |db.gps| > 0 && |db.drivers| > 0 && |db.results| > 0
    ensures Seed(db, args, env) == Completed(db)
  {
    var plan := PlanFor(args);
    forall e ensures !plan.drop && Size(db, e) > 0 {
    }
    RunStepsSkipsPopulated(db, plan.steps, env);
  }

  lemma {:induction false} RunStepsSkipsPopulated(db: Db, steps: seq<Entity>, env: Env)
    requires forall e :: Size(db, e) > 0
    ensures RunSteps(db, steps, false, env) == Completed(db)
    decreases |steps|
  {
    if |steps| > 0 {
      LoadContract(db, steps[0], false, env);
      RunStepsSkipsPopulated(db, steps[1..], env);
    }
  }

  /** No arguments means: load GP, Driver and Result, in that order, without
      dropping. `--drop-data` on its own selects no load at all. */
  lemma PlanExamples()
    ensures PlanFor([]) == Plan(false, [GPs, Drivers, Results])
    ensures PlanFor(["--all", "--drop-data"]) == Plan(true, [GPs, Drivers, Results])
    ensures PlanFor(["--load-results", "--load-gps"]) == Plan(false, [GPs, Results])
    ensures PlanFor(["--drop-data"]) == Plan(true, [])
  {
  }
}

=== FILE: seqs.dfy ===
/** Sequence helpers shared by the loader, the chart and the navigation bar. */
module Seqs {

  function Min(a: int, b: int): int {
    if a <= b then a else b
  }

  /** `Array.prototype.filter`: the elements of `s` that satisfy `keep`, in order. */
  function Filter<T>(s: seq<T>, keep: T -> bool): (r: seq<T>)
    ensures |r| <= |s|
    ensures forall i :: 0 <= i < |r| ==> keep(r[i])
    decreases |s|
  {
    if |s| == 0 then []
    else (if keep(s[0]) then [s[0]] else []) + Filter(s[1..], keep)
  }

  /** Filtering a sequence with one more element at the end. */
  lemma {:induction false} FilterSnoc<T>(s: seq<T>, x: T, keep: T -> bool)
    ensures Filter(s + [x], keep) == Filter(s, keep) + (if keep(x) then [x] else [])
    decreases |s|
  {
    if |s| == 0 {
      assert s + [x] == [x];
      assert [x][1..] == [];
    } else {
      assert (s + [x])[0] == s[0];
      assert (s + [x])[1..] == s[1..] + [x];
      FilterSnoc(s[1..], x, keep);
      var head := if keep(s[0]) then [s[0]] else [];
      var tail := if keep(x) then [x] else [];
      assert head + (Filter(s[1..], keep) + tail) == (head + Filter(s[1..], keep)) + tail;
    }
  }

  /** Every index moved one place to the right. */
  function Shift(ix: seq<nat>): (r: seq<nat>)
    ensures |r| == |ix|
    ensures forall k :: 0 <= k < |ix| ==> r[k] == ix[k] + 1
  {
    seq(|ix|, k requires 0 <= k < |ix| => ix[k] + 1)
  }

  /** The positions in `s` of the elements `Filter` keeps. */
  function Kept<T>(s: seq<T>, keep: T -> bool): seq<nat>
    decreases |s|
  {
    if |s| == 0 then []
    else (if keep(s[0]) then [0] else []) + Shift(Kept(s[1..], keep))
  }

  predicate StrictlyIncreasing(ix: seq<int>) {
    forall j, k :: 0 <= j < k < |ix| ==> ix[j] < ix[k]
  }

  lemma ShiftMembership(ix: seq<nat>, i: nat)
    ensures i in Shift(ix) <==> i > 0 && i - 1 in ix
  {
    if i in Shift(ix) {
      var k :| 0 <= k < |ix| && Shift(ix)[k] == i;
      assert ix[k] == i - 1;
    }
    if i > 0 && i - 1 in ix {
      var k :| 0 <= k < |ix| && ix[k] == i - 1;
      assert Shift(ix)[k] == i;
    }
  }

  /** `Filter(s, keep)` is the selection of `s` at the increasing positions
      `Kept(s, keep)`, and a position is selected exactly when its element
      satisfies `keep`: nothing is reordered, duplicated or invented. */
  lemma FilterIsOrderedSelection<T>(s: seq<T>, keep: T -> bool)
    ensures |Kept(s, keep)| == |Filter(s, keep)|
    ensures StrictlyIncreasing(Kept(s, keep))
    ensures forall k :: 0 <= k < |Kept(s, keep)| ==>
              Kept(s, keep)[k] < |s| && Filter(s, keep)[k] == s[Kept(s, keep)[k]]
    ensures forall i: nat :: i < |s| ==> (i in Kept(s, keep) <==> keep(s[i]))
  {
    KeptSelects(s, keep);
    KeptIncreasing(s, keep);
    KeptMembership(s, keep);
  }

  /** The k-th kept element sits at the k-th kept position. */
  ghost predicate SelectsAt<T>(s: seq<T>, ix: seq<nat>, r: seq<T>) {
    |ix| == |r| && forall k :: 0 <= k < |ix| ==> ix[k] < |s| && r[k] == s[ix[k]]
  }

  lemma {:induction false} KeptSelects<T>(s: seq<T>, keep: T -> bool)
    ensures |Kept(s, keep)| == |Filter(s, keep)|
    ensures forall k :: 0 <= k < |Kept(s, keep)| ==>
              Kept(s, keep)[k] < |s| && Filter(s, keep)[k] == s[Kept(s, keep)[k]]
    decreases |s|
  {
    if |s| > 0 {
      KeptSelects(s[1..], keep);
      KeptSelectsStep(s, keep);
    }
  }

  lemma KeptSelectsStep<T>(s: seq<T>, keep: T -> bool)
    requires |s| > 0
    requires SelectsAt(s[1..], Kept(s[1..], keep), Filter(s[1..], keep))
    ensures SelectsAt(s, Kept(s, keep), Filter(s, keep))
  {
    var tail := s[1..];
    if keep(s[0]) {
      assert Kept(s, keep) == [0] + Shift(Kept(tail, keep));
      assert Filter(s, keep) == [s[0]] + Filter(tail, keep);
      SelectsKeptHead(s, Shift(Kept(tail, keep)), Filter(tail, keep), Kept(tail, keep));
    } else {
      assert Kept(s, keep) == Shift(Kept(tail, keep));
      assert Filter(s, keep) == Filter(tail, keep);
      SelectsSkippedHead(s, Filter(tail, keep), Kept(tail, keep));
    }
  }

  lemma SelectsKeptHead<T>(s: seq<T>, shifted: seq<nat>, r': seq<T>, ix': seq<nat>)
    requires |s| > 0
    requires SelectsAt(s[1..], ix', r')
    requires shifted == Shift(ix')
    ensures SelectsAt(s, [0] + shifted, [s[0]] + r')
  {
    var ix, r := [0] + shifted, [s[0]] + r';
    forall k | 1 <= k < |ix|
      ensures ix[k] < |s| && r[k] == s[ix[k]]
    {
      assert ix[k] == ix'[k - 1] + 1;
      assert r[k] == r'[k - 1] == s[1..][ix'[k - 1]];
    }
  }

  lemma SelectsSkippedHead<T>(s: seq<T>, r': seq<T>, ix': seq<nat>)
    requires |s| > 0
    requires SelectsAt(s[1..], ix', r')
    ensures SelectsAt(s, Shift(ix'), r')
  {
    var ix := Shift(ix');
    forall k | 0 <= k < |ix|
      ensures ix[k] < |s| && r'[k] == s[ix[k]]
    {
      assert ix[k] == ix'[k] + 1;
      assert r'[k] == s[1..][ix'[k]];
    }
  }

  lemma {:induction false} KeptIncreasing<T>(s: seq<T>, keep: T -> bool)
    ensures StrictlyIncreasing(Kept(s, keep))
    decreases |s|
  {
    if |s| > 0 {
      KeptIncreasing(s[1..], keep);
      var ix' := Kept(s[1..], keep);
      var h := if keep(s[0]) then 1 else 0;
      var ix := Kept(s, keep);
      forall j, k | 0 <= j < k < |ix|
        ensures ix[j] < ix[k]
      {
        assert ix[k] == ix'[k - h] + 1;
        if j >= h {
          assert ix[j] == ix'[j - h] + 1;
        }
      }
    }
  }

  lemma {:induction false} KeptMembership<T>(s: seq<T>, keep: T -> bool)
    ensures forall i: nat :: i < |s| ==> (i in Kept(s, keep) <==> keep(s[i]))
    decreases |s|
  {
    if |s| > 0 {
      var tail := s[1..];
      KeptMembership(tail, keep);
      var ix' := Kept(tail, keep);
      var head: seq<nat> := if keep(s[0]) then [0] else [];
      assert Kept(s, keep) == head + Shift(ix');
      forall i: nat | i < |s|
        ensures i in Kept(s, keep) <==> keep(s[i])
      {
        ShiftMembership(ix', i);
        if i > 0 {
          assert s[i] == tail[i - 1];
        }
      }
    }
  }

  /** An element survives the filter exactly when it occurs in `s` and satisfies `keep`. */
  lemma FilterMembership<T>(s: seq<T>, keep: T -> bool, x: T)
    ensures x in Filter(s, keep) <==> x in s && keep(x)
  {
    FilterIsOrderedSelection(s, keep);
    var r, ix := Filter(s, keep), Kept(s, keep);
    if x in r {
      var k :| 0 <= k < |r| && r[k] == x;
      assert s[ix[k]] == x;
    }
    if x in s && keep(x) {
      var i :| 0 <= i < |s| && s[i] == x;
      assert i in ix;
      var k :| 0 <= k < |ix| && ix[k] == i;
      assert r[k] == x;
    }
  }

  /** `Array.prototype.flat` on one level: the pieces joined end to end. */
  function Flatten<T>(ss: seq<seq<T>>): seq<T>
    decreases |ss|
  {
    if |ss| == 0 then [] else ss[0] + Flatten(ss[1..])
  }
}

=== FILE: session.dfy ===
/** The authorization guards of app/lib/session.server.ts. A guard either
    lets the session through or rejects the request with a response. */
module Session {
  import opened Wrappers

  /** `SessionData`: the optional fields are absent until a login sets them. */
  datatype SessionData = SessionData(
    userId: Option<int>, email: Option<string>, role: Option<string>, isLoggedIn: bool)

  /** The thrown `Response`: a status and its text body. */
  datatype Rejection = Rejection(status: int, body: string)

  const Unauthorized := Rejection(401, "Unauthorized")
  const Forbidden := Rejection(403, "Forbidden")

  /** The outcome of a guard: the session it returns, or the response it throws. */
  datatype Guard = Allowed(session: SessionData) | Rejected(rejection: Rejection)

  /** JavaScript truthiness of an optional number: absent and 0 are falsy
      (NaN is never stored, since ids are integers). */
  predicate NumberTruthy(v: Option<int>) {
    v.Some? && v.value != 0
  }

  /** JavaScript truthiness of an optional string: absent and "" are falsy. */
  predicate StringTruthy(v: Option<string>) {
    v.Some? && v.value != ""
  }

  /** A session that belongs to a logged-in user with a usable id. */
  predicate Authenticated(s: SessionData) {
    s.isLoggedIn && s.userId.Some? && s.userId.value != 0
  }

  /** `requireAuth`: 401 unless logged in with a truthy user id; otherwise
      the session itself. */
  function RequireAuth(s: SessionData): (g: Guard)
    ensures g.Allowed? <==> Authenticated(s)
    ensures g.Allowed? ==> g.session == s
    ensures g.Rejected? ==> g.rejection.status == 401
  {
    if !s.isLoggedIn || !NumberTruthy(s.userId) then Rejected(Unauthorized) else Allowed(s)
  }

  /** `requireRole`: authentication is checked first; then 403 unless the
      role is present, non-empty and listed. */
  function RequireRole(s: SessionData, allowedRoles: seq<string>): (g: Guard)
    ensures !Authenticated(s) ==> g == Rejected(Unauthorized)
    ensures g.Allowed? <==> Authenticated(s) && s.role.Some? && s.role.value != "" && s.role.value in allowedRoles
    ensures g.Allowed? ==> g.session == s
    ensures Authenticated(s) && g.Rejected? ==> g.rejection.status == 403
  {
    match RequireAuth(s)
    case Rejected(r) => Rejected(r)
    case Allowed(_) =>
      if !StringTruthy(s.role) || s.role.value !in allowedRoles then Rejected(Forbidden) else Allowed(s)
  }

  /** An unauthenticated request is answered 401, never 403, whatever roles
      are allowed. */
  lemma UnauthenticatedNeverForbidden(s: SessionData, allowedRoles: seq<string>)
    ensures RequireAuth(s).Rejected? ==> RequireRole(s, allowedRoles) == RequireAuth(s)
    ensures RequireRole(s, allowedRoles).Rejected? && RequireRole(s, allowedRoles).rejection.status == 403 ==> RequireAuth(s).Allowed?
  {
  }

  /** Passing the role guard implies passing the login guard and holding a
      listed role. */
  lemma RoleImpliesAuth(s: SessionData, allowedRoles: seq<string>)
    requires RequireRole(s, allowedRoles).Allowed?
    ensures RequireAuth(s) == Allowed(s)
    ensures s.role.Some? && s.role.value in allowedRoles
  {
  }

  /** With no allowed role every request is rejected: 401 before login,
      403 after. */
  lemma EmptyRolesRejectAll(s: SessionData)
    ensures RequireRole(s, []).Rejected?
    ensures RequireRole(s, []).rejection == if Authenticated(s) then Forbidden else Unauthorized
  {
  }

  /** Allowing more roles never turns an accepted session away. */
  lemma RoleGuardMonotone(s: SessionData, fewer: seq<string>, more: seq<string>)
    requires forall r :: r in fewer ==> r in more
    ensures RequireRole(s, fewer).Allowed? ==> RequireRole(s, more).Allowed?
  {
  }

  /** The session a guard lets through passes the same guard again. */
  lemma GuardsIdempotent(s: SessionData, allowedRoles: seq<string>)
    ensures RequireAuth(s).Allowed? ==> RequireAuth(RequireAuth(s).session) == RequireAuth(s)
    ensures RequireRole(s, allowedRoles).Allowed? ==>
      RequireRole(RequireRole(s, allowedRoles).session, allowedRoles) == RequireRole(s, allowedRoles)
  {
  }

  /** `createSession`: the four fields are overwritten, so nothing of the
      previous session survives. */
  function CreateSession(previous: SessionData, userId: int, email: string, role: string): (s: SessionData)
    ensures s.isLoggedIn
    ensures s.userId == Some(userId) && s.email == Some(email) && s.role == Some(role)
  {
    previous.(userId := Some(userId), email := Some(email), role := Some(role), isLoggedIn := true)
  }

  /** The new session does not depend on the one it replaces. */
  lemma CreateSessionForgetsPrevious(a: SessionData, b: SessionData, userId: int, email: string, role: string)
    ensures CreateSession(a, userId, email, role) == CreateSession(b, userId, email, role)
  {
  }

  /** A fresh login passes `requireAuth` exactly when its id is not 0. */
  lemma LoginAuthenticates(previous: SessionData, userId: int, email: string, role: string)
    ensures RequireAuth(CreateSession(previous, userId, email, role)).Allowed? <==> userId != 0
  {
  }

  /** A fresh login passes `requireRole` exactly when its id is not 0 and
      its role is non-empty and listed. */
  lemma LoginAuthorizes(previous: SessionData, userId: int, email: string, role: string, allowedRoles: seq<string>)
    ensures RequireRole(CreateSession(previous, userId, email, role), allowedRoles).Allowed?
      <==> userId != 0 && role != "" && role in allowedRoles
  {
  }

  /** A user with id 0 is logged in but never authenticated. */
  lemma ZeroIdRejected(previous: SessionData, email: string, role: string)
    ensures RequireAuth(CreateSession(previous, 0, email, role)) == Rejected(Unauthorized)
  {
  }
}

=== FILE: table.dfy ===
/** The database table as the loader sees it: an ordered list of rows with
    `createMany({ data, skipDuplicates: true })` as the only insert. */
module Table {
  import opened Seqs

  /** The keys of a table's rows, in row order. */
  function Keys<R, K>(t: seq<R>, key: R -> K): (ks: seq<K>)
    ensures |ks| == |t|
    ensures forall i :: 0 <= i < |t| ==> ks[i] == key(t[i])
  {
    seq(|t|, i requires 0 <= i < |t| => key(t[i]))
  }

  /** The table's unique constraint: no two rows share a key. */
  predicate UniqueKeys<R, K(==)>(t: seq<R>, key: R -> K) {
    forall i, j :: 0 <= i < j < |t| ==> key(t[i]) != key(t[j])
  }

  /** `x` is the first of the records with its key. */
  predicate FirstOfKey<R(==), K(==)>(records: seq<R>, x: R, key: R -> K) {
    exists j :: 0 <= j < |records| && records[j] == x && forall i :: 0 <= i < j ==> key(records[i]) != key(x)
  }

  /** Being first of its key carries over to a longer list whose head has another key. */
  lemma FirstOfKeyCons<R, K>(records: seq<R>, x: R, key: R -> K)
    requires |records| > 0 && key(records[0]) != key(x)
    requires FirstOfKey(records[1..], x, key)
    ensures FirstOfKey(records, x, key)
  {
    var j :| 0 <= j < |records[1..]| && records[1..][j] == x && forall i :: 0 <= i < j ==> key(records[1..][i]) != key(x);
    assert records[j + 1] == x;
    forall i | 0 <= i < j + 1 ensures key(records[i]) != key(x) {
      if i > 0 {
        assert records[i] == records[1..][i - 1];
      }
    }
  }

  /** `FirstOfKeyCons` for every row of `r` from position `lo` on. */
  lemma FirstOfKeysCons<R, K>(records: seq<R>, r: seq<R>, lo: nat, key: R -> K)
    requires |records| > 0
    requires forall i :: lo <= i < |r| ==> key(r[i]) != key(records[0]) && FirstOfKey(records[1..], r[i], key)
    ensures forall i :: lo <= i < |r| ==> FirstOfKey(records, r[i], key)
  {
    forall i | lo <= i < |r| ensures FirstOfKey(records, r[i], key) {
      FirstOfKeyCons(records, r[i], key);
    }
  }

  lemma KeysAppend<R, K>(t: seq<R>, x: R, key: R -> K)
    ensures Keys(t + [x], key) == Keys(t, key) + [key(x)]
  {
  }

  /** `createMany` with `skipDuplicates: true` on a table whose unique key is
      `key`: the records are inserted in order, and one whose key is already in
      the table (including one inserted earlier in the same call) is skipped
      without error. Existing rows are untouched, every added row is a
      submitted record with a key that was new, and the first submitted record
      with that key (later ones with the same key are the ones skipped), the
      unique constraint is kept, and afterwards every submitted key is present. */
  function InsertSkipDuplicates<R(==), K(==)>(t: seq<R>, records: seq<R>, key: R -> K): (r: seq<R>)
    ensures |t| <= |r| <= |t| + |records|
    ensures r[..|t|] == t
    ensures forall i :: |t| <= i < |r| ==> r[i] in records && key(r[i]) !in Keys(t, key)
    ensures forall i :: |t| <= i < |r| ==> FirstOfKey(records, r[i], key)
    ensures UniqueKeys(t, key) ==> UniqueKeys(r, key)
    ensures forall x :: x in records ==> key(x) in Keys(r, key)
    decreases |records|, 1
  {
    if |records| == 0 then t
    else if key(records[0]) in Keys(t, key) then
      SkipStep(t, records, key);
      InsertSkipDuplicates(t, records[1..], key)
    else
      AddStep(t, records, key);
      InsertSkipDuplicates(t + [records[0]], records[1..], key)
  }

  /** What `InsertSkipDuplicates` promises of its result `r`. */
  predicate Inserted<R(==), K(==)>(t: seq<R>, records: seq<R>, key: R -> K, r: seq<R>) {
    && |t| <= |r| <= |t| + |records|
    && r[..|t|] == t
    && (forall i :: |t| <= i < |r| ==> r[i] in records && key(r[i]) !in Keys(t, key))
    && (forall i :: |t| <= i < |r| ==> FirstOfKey(records, r[i], key))
    && (UniqueKeys(t, key) ==> UniqueKeys(r, key))
    && (forall x :: x in records ==> key(x) in Keys(r, key))
  }

  /** A record whose key is already in the table is skipped. */
  lemma SkipStep<R, K>(t: seq<R>, records: seq<R>, key: R -> K)
    requires |records| > 0 && key(records[0]) in Keys(t, key)
    ensures Inserted(t, records, key, InsertSkipDuplicates(t, records[1..], key))
    decreases |records|, 0
  {
    var x := records[0];
    var r := InsertSkipDuplicates(t, records[1..], key);
    assert forall y :: y in records[1..] ==> y in records;
    assert key(x) in Keys(r, key) by {
      var i :| 0 <= i < |t| && key(t[i]) == key(x);
      assert r[i] == t[i];
    }
    FirstOfKeysCons(records, r, |t|, key);
    assert forall y :: y in records ==> y == x || y in records[1..];
  }

  /** A record with a new key is appended, and what follows is inserted after it. */
  lemma AddStep<R, K>(t: seq<R>, records: seq<R>, key: R -> K)
    requires |records| > 0 && key(records[0]) !in Keys(t, key)
    ensures Inserted(t, records, key, InsertSkipDuplicates(t + [records[0]], records[1..], key))
    decreases |records|, 0
  {
    var x := records[0];
    var t' := t + [x];
    var r := InsertSkipDuplicates(t', records[1..], key);
    KeysAppend(t, x, key);
    assert r[..|t|] == t'[..|t|] == t;
    assert r[|t|] == x;
    assert forall y :: y in records[1..] ==> y in records;
    assert key(x) in Keys(r, key) by {
      assert Keys(r, key)[|t|] == key(x);
    }
    assert FirstOfKey(records, x, key) by {
      assert records[0] == x;
    }
    assert Keys(t', key)[|t|] == key(x);
    FirstOfKeysCons(records, r, |t| + 1, key);
    forall i | |t| <= i < |r| ensures FirstOfKey(records, r[i], key) {
      if i == |t| {
        assert r[i] == x;
      }
    }
    forall i | |t| <= i < |r| ensures r[i] in records && key(r[i]) !in Keys(t, key) {
      if i > |t| {
        assert key(r[i]) !in Keys(t, key) + [key(x)];
      }
    }
    forall y | y in records ensures key(y) in Keys(r, key) {
      if y != x {
        assert y in records[1..];
      }
    }
    if UniqueKeys(t, key) {
      assert UniqueKeys(t', key);
    }
  }

  /** Submitting the records in several calls inserts the same rows as one
      call with all of them: batching does not change what is stored. */
  lemma {:induction false} InsertInPieces<R, K>(t: seq<R>, a: seq<R>, b: seq<R>, key: R -> K)
    ensures InsertSkipDuplicates(InsertSkipDuplicates(t, a, key), b, key)
         == InsertSkipDuplicates(t, a + b, key)
    decreases |a|
  {
    if |a| > 0 {
      assert (a + b)[0] == a[0];
      assert (a + b)[1..] == a[1..] + b;
      var t' := if key(a[0]) in Keys(t, key) then t else t + [a[0]];
      InsertInPieces(t', a[1..], b, key);
    } else {
      assert a + b == b;
    }
  }

  /** `createMany` once per batch, batch after batch. */
  function InsertBatches<R(==), K(==)>(t: seq<R>, batches: seq<seq<R>>, key: R -> K): seq<R>
    decreases |batches|
  {
    if |batches| == 0 then t
    else InsertBatches(InsertSkipDuplicates(t, batches[0], key), batches[1..], key)
  }

  /** Inserting batch after batch stores what one insert of all the records would. */
  lemma {:induction false} InsertBatchesIsInsertAll<R, K>(t: seq<R>, batches: seq<seq<R>>, key: R -> K)
    ensures InsertBatches(t, batches, key) == InsertSkipDuplicates(t, Flatten(batches), key)
    decreases |batches|
  {
    if |batches| > 0 {
      InsertBatchesIsInsertAll(InsertSkipDuplicates(t, batches[0], key), batches[1..], key);
      InsertInPieces(t, batches[0], Flatten(batches[1..]), key);
    }
  }
}

=== FILE: text.dfy ===
/** The JavaScript string operations the loader relies on: `trim`, `split`,
    `join` and the character-removing `replace(/\r/g, "")`. */
module Text {
  import opened Seqs

  /** ECMAScript WhiteSpace and LineTerminator code points: what `trim`
      removes and what `parseInt` skips before the digits. */
  predicate IsSpace(c: char) {
    var k := c as int;
    || 0x09 <= k <= 0x0D
    || k == 0x20 || k == 0xA0 || k == 0x1680
    || 0x2000 <= k <= 0x200A
    || k == 0x2028 || k == 0x2029 || k == 0x202F || k == 0x205F
    || k == 0x3000 || k == 0xFEFF
  }

  /** Every character is whitespace (the empty string included). */
  predicate Blank(s: string) {
    forall i :: 0 <= i < |s| ==> IsSpace(s[i])
  }

  lemma BlankConcat(a: string, b: string)
    ensures Blank(a + b) <==> Blank(a) && Blank(b)
  {
    if Blank(a) && Blank(b) {
      forall i | 0 <= i < |a + b| ensures IsSpace((a + b)[i]) {
        if i >= |a| { assert (a + b)[i] == b[i - |a|]; }
      }
    }
    if Blank(a + b) {
      forall i | 0 <= i < |a| ensures IsSpace(a[i]) {
        assert a[i] == (a + b)[i];
      }
      forall i | 0 <= i < |b| ensures IsSpace(b[i]) {
        assert b[i] == (a + b)[|a| + i];
      }
    }
  }

  /** The first index at or after `i` that does not hold whitespace (or the
      length, when there is none). */
  function SpaceRun(s: string, i: nat): (n: nat)
    requires i <= |s|
    ensures i <= n <= |s|
    ensures forall j :: i <= j < n ==> IsSpace(s[j])
    ensures n < |s| ==> !IsSpace(s[n])
    decreases |s| - i
  {
    if i < |s| && IsSpace(s[i]) then SpaceRun(s, i + 1) else i
  }

  /** The index just after the last character before `j` that is not
      whitespace (or 0, when there is none). */
  function SpaceRunBack(s: string, j: nat): (n: nat)
    requires j <= |s|
    ensures n <= j
    ensures forall k :: n <= k < j ==> IsSpace(s[k])
    ensures n > 0 ==> !IsSpace(s[n - 1])
    decreases j
  {
    if j > 0 && IsSpace(s[j - 1]) then SpaceRunBack(s, j - 1) else j
  }

  /** `trimStart`: the longest suffix of `s` that does not begin with whitespace. */
  function TrimStart(s: string): (r: string)
    ensures |r| <= |s| && r == s[|s| - |r|..]
    ensures Blank(s[..|s| - |r|])
    ensures |r| > 0 ==> !IsSpace(r[0])
  {
    s[SpaceRun(s, 0)..]
  }

  /** `trimEnd`: the longest prefix of `s` that does not end with whitespace. */
  function TrimEnd(s: string): (r: string)
    ensures |r| <= |s| && r == s[..|r|]
    ensures Blank(s[|r|..])
    ensures |r| > 0 ==> !IsSpace(r[|r| - 1])
  {
    s[..SpaceRunBack(s, |s|)]
  }

  /** `String.prototype.trim`. */
  function Trim(s: string): (r: string)
    ensures |r| == 0 || (!IsSpace(r[0]) && !IsSpace(r[|r| - 1]))
  {
    TrimEnd(TrimStart(s))
  }

  /** Trimming leaves a contiguous piece of the input, with only whitespace cut
      away on either side. */
  lemma TrimIsSlice(s: string)
    ensures var a, r := SpaceRun(s, 0), Trim(s);
      && a + |r| <= |s|
      && r == s[a..a + |r|]
      && Blank(s[..a]) && Blank(s[a + |r|..])
  {
    TrimKeepsMiddle(s);
    TrimCutsBlank(s);
  }

  lemma TrimKeepsMiddle(s: string)
    ensures SpaceRun(s, 0) + |Trim(s)| <= |s|
    ensures Trim(s) == s[SpaceRun(s, 0)..SpaceRun(s, 0) + |Trim(s)|]
  {
    var a := SpaceRun(s, 0);
    var r := Trim(s);
    assert r == s[a..][..|r|];
  }

  lemma TrimCutsBlank(s: string)
    ensures SpaceRun(s, 0) + |Trim(s)| <= |s|
    ensures Blank(s[SpaceRun(s, 0) + |Trim(s)|..])
  {
    var a := SpaceRun(s, 0);
    var t := s[a..];
    var r := Trim(s);
    assert Blank(t[|r|..]);
    assert t[|r|..] == s[a + |r|..];
  }

  /** `r` is `t` with a whitespace-only prefix and suffix cut away. */
  predicate OuterSpaceCut(t: string, r: string) {
    exists a: nat :: a + |r| <= |t| && r == t[a..a + |r|] && Blank(t[..a]) && Blank(t[a + |r|..])
  }

  lemma TrimCutsOuterSpace(t: string)
    ensures OuterSpaceCut(t, Trim(t))
  {
    TrimIsSlice(t);
    var a, r := SpaceRun(t, 0), Trim(t);
    assert a + |r| <= |t| && r == t[a..a + |r|] && Blank(t[..a]) && Blank(t[a + |r|..]);
  }

  /** A trimmed string holds only characters of the original. */
  lemma TrimKeepsCharacters(s: string, c: char)
    ensures c in Trim(s) ==> c in s
  {
    TrimIsSlice(s);
  }

  /** `s.trim() === ""` exactly when `s` is all whitespace. */
  lemma TrimEmptyIffBlank(s: string)
    ensures Trim(s) == "" <==> Blank(s)
  {
    TrimIsSlice(s);
    var a := SpaceRun(s, 0);
    if Trim(s) == "" {
      assert s == s[..a] + s[a..];
      BlankConcat(s[..a], s[a..]);
    } else {
      assert s[a] == Trim(s)[0];
    }
  }

  /** `trim` is idempotent. */
  lemma TrimIdempotent(s: string)
    ensures Trim(Trim(s)) == Trim(s)
  {
    var r := Trim(s);
    assert SpaceRun(r, 0) == 0;
    assert SpaceRunBack(r, |r|) == |r|;
  }

  /** `replace(/c/g, "")`: `s` with every occurrence of `c` removed. */
  function RemoveAll(s: string, c: char): (r: string)
    ensures c !in r
    ensures |r| <= |s|
    ensures forall x :: x in r ==> x in s
    ensures forall x :: x != c ==> multiset(r)[x] == multiset(s)[x]
    decreases |s|
  {
    if |s| == 0 then ""
    else
      assert s == [s[0]] + s[1..];
      (if s[0] == c then "" else [s[0]]) + RemoveAll(s[1..], c)
  }

  /** Every character but `c`. */
  function Other(c: char): char -> bool {
    x => x != c
  }

  /** Removal is the filter that keeps every character but `c`. */
  lemma {:induction false} RemoveAllIsFilter(s: string, c: char)
    ensures RemoveAll(s, c) == Filter(s, Other(c))
    decreases |s|
  {
    if |s| > 0 {
      RemoveAllIsFilter(s[1..], c);
    }
  }

  /** The characters other than `c` all survive, in their order: the k-th
      character of the result is the input's character at the k-th of the
      strictly increasing positions that do not hold `c`. */
  lemma RemoveAllKeepsOthersInOrder(s: string, c: char)
    ensures var r, ix := RemoveAll(s, c), Kept(s, Other(c));
      && |ix| == |r|
      && StrictlyIncreasing(ix)
      && (forall k :: 0 <= k < |ix| ==> ix[k] < |s| && r[k] == s[ix[k]])
      && (forall i: nat :: i < |s| ==> (i in ix <==> s[i] != c))
  {
    RemoveAllIsFilter(s, c);
    FilterIsOrderedSelection(s, Other(c));
  }

  /** Removal works piece by piece. */
  lemma {:induction false} RemoveAllConcat(a: string, b: string, c: char)
    ensures RemoveAll(a + b, c) == RemoveAll(a, c) + RemoveAll(b, c)
    decreases |a|
  {
    if |a| == 0 {
      assert a + b == b;
    } else {
      RemoveAllConcat(a[1..], b, c);
      var head := if a[0] == c then "" else [a[0]];
      assert (a + b)[0] == a[0] && (a + b)[1..] == a[1..] + b;
      assert RemoveAll(a + b, c) == head + RemoveAll(a[1..] + b, c);
      assert RemoveAll(a, c) == head + RemoveAll(a[1..], c);
      assert head + (RemoveAll(a[1..], c) + RemoveAll(b, c)) == (head + RemoveAll(a[1..], c)) + RemoveAll(b, c);
    }
  }

  /** Removing a character that does not occur changes nothing, so removal is idempotent. */
  lemma {:induction false} RemoveAllAbsent(s: string, c: char)
    requires c !in s
    ensures RemoveAll(s, c) == s
    decreases |s|
  {
    if |s| > 0 {
      RemoveAllAbsent(s[1..], c);
      assert s == [s[0]] + s[1..];
    }
  }

  /** Removing a whitespace character neither creates nor destroys blankness. */
  lemma {:induction false} RemoveAllBlank(s: string, c: char)
    requires IsSpace(c)
    ensures Blank(RemoveAll(s, c)) <==> Blank(s)
    decreases |s|
  {
    if |s| > 0 {
      RemoveAllBlank(s[1..], c);
      var head := if s[0] == c then "" else [s[0]];
      BlankConcat(head, RemoveAll(s[1..], c));
      BlankConcat([s[0]], s[1..]);
      assert s == [s[0]] + s[1..];
    }
  }

  /** `String.prototype.split(sep)` for a one-character separator. There is
      always at least one piece, and no piece contains the separator. */
  function Split(s: string, sep: char): (pieces: seq<string>)
    ensures |pieces| >= 1
    ensures forall i :: 0 <= i < |pieces| ==> sep !in pieces[i]
    decreases |s|
  {
    if |s| == 0 then [""]
    else
      var rest := Split(s[1..], sep);
      if s[0] == sep then [""] + rest
      else [[s[0]] + rest[0]] + rest[1..]
  }

  /** `Array.prototype.join(sep)`. */
  function Join(pieces: seq<string>, sep: char): string
    decreases |pieces|
  {
    if |pieces| == 0 then ""
    else if |pieces| == 1 then pieces[0]
    else pieces[0] + [sep] + Join(pieces[1..], sep)
  }

  /** Splitting loses nothing: joining the pieces with the separator gives back `s`. */
  lemma {:induction false} JoinSplit(s: string, sep: char)
    ensures Join(Split(s, sep), sep) == s
    decreases |s|
  {
    if |s| > 0 {
      var rest := Split(s[1..], sep);
      JoinSplit(s[1..], sep);
      if s[0] == sep {
        assert Split(s, sep)[1..] == rest;
        assert s == [sep] + s[1..];
      } else if |rest| == 1 {
        assert s == [s[0]] + rest[0];
      } else {
        var pieces := Split(s, sep);
        assert pieces[1..] == rest[1..];
        assert Join(rest, sep) == rest[0] + [sep] + Join(rest[1..], sep);
        assert s == [s[0]] + s[1..];
      }
    }
  }
}

=== FILE: wrappers.dfy ===
/** A value that may be absent: JavaScript's `undefined` or `null` next to a present value. */
module Wrappers {

  datatype Option<+T> = None | Some(value: T) {

    /** The `??` operator: the value when present, otherwise `default`. */
    function GetOr(default: T): T {
      match this
      case Some(v) => v
      case None => default
    }
  }
}
